=== FILE: README.md ===
# hexdunk edit state in Dafny

hexdunk is a hex editor. Each open file has a byte buffer, and every tab is a
view on one open file. A view has a cursor, a selection, a mouse drag in
progress and an edit mode (normal, insert or overwrite). This project models
the part of the editor that decides what the bytes, the cursor, the selection,
the clipboard and the undo and redo stacks become after each user action. It
covers:

- the hex view (`HexWidget`): the address column, cursor clamping, keyboard
  moves, the scroll position, mouse and shift-click selection with the
  end-of-data chomp, and edit-mode dispatch;
- the editing actions with their undo and redo records (`Editing`, over one
  file and its view, and `Actions`, the same actions on the global state);
- the byte buffer operations named after the buffer library's calls
  (`FileBuf`);
- the two-nibble hex input box (`InputWidget`);
- the older hex view in the `widget` package (`LegacyWidget`), kept apart so
  the two revisions are not mixed;
- the registry of open files and tabs (`Global`, `Registry`).

## How the model is built

- The buffer is a `seq<bv8>`.
- An undo entry is a tagged `Editing.Record`, replayed by `ApplyUndo`/`ApplyRedo`.
  In the program it is a pair of closures.
- `Editing.HistoryOk` is the history invariant. Every record on the undo stack
  can be undone on the buffer it meets, and redoing it gives that buffer back.
  The redo stack satisfies the same with the two exchanged.
- The global state is the class `Global.Globals`, whose `Valid()` is
  `Consistent` of its snapshot:
  - the active index is in range;
  - every tab names an open file;
  - every file is stored under its own name and keeps `HistoryOk`.
- The actions in `Actions` are methods on `Globals`. Each is proved equal to the
  pure `Editing` action applied to the active file and view.
- Go's truncating `/` and `%` are `GoInt.Div` and `GoInt.Rem`. `int64` is an
  unbounded integer, since no modelled computation comes near 2^63.
- Panics are preconditions where the caller must avoid them: a tab index out of
  range, a tab naming a closed file, or closing a file that a tab still shows.
- The end-of-data check in `updateSelection` can fire in the program (third
  row of "## Findings"). What is proved about the code as written is
  `HexWidget.UpdatedSelectionAgrees`: from a state satisfying
  `SelectionInRange`, the single decrement removes the end-of-data address and
  the check does not fire. The widget's `UpdateSelection` uses the corrected
  chomp, `HexWidget.ChompEof`, under which the address is never selected.

## Model

| member | source | states |
|---|---|---|
| FileBuf.Insert1 | action.go:44 | one byte longer, `b` at `off`, the bytes before and after `off` kept in order |
| FileBuf.Remove | action.go:76 | `n` bytes shorter, the bytes before `off` and after `off+n` kept in order |
| FileBuf.Paste | action.go:114 | the data lands at `off`, with what was before and after it unchanged |
| FileBuf.ReadAt | action.go:66-75 | seek and read succeed exactly when `off` is inside the buffer, and give the byte there |
| FileBuf.CheckRange | action.go:102 | a range is accepted exactly when its size is positive and it lies in the buffer; a size of zero or less is the invalid-range error |
| FileBuf.Cut | action.go:102 | fails exactly on a rejected range; on success pasting the cut bytes back at `off` rebuilds the buffer, and the lengths add up |
| FileBuf.Copy | action.go:133 | fails exactly on a rejected range; otherwise the bytes at `off..off+size` |
| FileBuf.RemoveInsert1 | action.go:48-51 | removing the inserted byte restores the buffer |
| FileBuf.ReplaceIsUpdate | action.go:76-77 | remove-then-insert at one offset replaces that byte and nothing else |
| FileBuf.RemovePaste | action.go:156-157 | removing the pasted range restores the buffer; the pasted range holds the data |
| HexFormat.HexDigitsBounds | hexwidget.go:18-28 | the digit count `d` of a positive address satisfies 16^(d-1) <= addr < 16^d |
| HexFormat.HexDigitsUnique | hexwidget.go:18-28 | that bracket determines the digit count |
| HexFormat.HexString | hexwidget.go:30-32 | upper-case hex text, at least one digit, no leading zero |
| HexFormat.ParseHexString | hexwidget.go:30-32 | the hex text reads back as the address |
| HexFormat.HexStringLength | hexwidget.go:18-32 | the text has as many digits as the digit count, and one for 0 |
| HexFormat.ZeroPad | hexwidget.go:31 | pads with leading zeros to at least `n` characters and keeps the text as its suffix |
| HexFormat.ParseHexLeadingZeros | hexwidget.go:31 | leading zeros do not change the value |
| HexWidget.NumHexDigits | hexwidget.go:18-28 | at least 1 (1 for addresses up to 0); 16^(d-1) <= addr < 16^d for positive ones; the length of the address's hex text |
| HexWidget.AddrLabel | hexwidget.go:30-32 | zero-padded hex digits followed by ':'; the width is `nDigits` or the address's own digit count if larger |
| HexWidget.AddrLabelValue | hexwidget.go:30-32 | the digits of the label read back as the address |
| HexWidget.BytesPerLine | hexwidget.go:105-115 | a non-zero multiple of 4; the largest one <= maxChars when maxChars >= 4, and 4 when the rounded count is 0 |
| HexWidget.ClampAddr | hexwidget.go:626-634 | maps into [0, N], is the identity on [0, N], sends negatives to 0 and addresses past N to N |
| HexWidget.ClampAddrIdempotent | hexwidget.go:626-634 | clamping twice is clamping once |
| HexWidget.ScrollUpShowsCursor | hexwidget.go:668-671 | the start of the cursor's line shows the cursor's line |
| HexWidget.ScrollDownShowsCursor | hexwidget.go:673-676 | when scrolling down, the corrected top shows the cursor's line as the last line |
| HexWidget.StayShowsCursor | hexwidget.go:677-678 | a top that is already showing the cursor's line is kept |
| HexWidget.ScrollTargetShowsCursor | hexwidget.go:664-679 | for an aligned top, the corrected target is a line start whose screen holds the cursor's line |
| HexWidget.ScrollTop | hexwidget.go:664-683 | the new top is in [0, N] and, for an aligned top, a line start whose screen holds the cursor's line (corrected: see ## Findings) |
| HexWidget.ScrollTargetAsWrittenOffLineStart | hexwidget.go:673-676 | when the cursor is not at a line start, the scroll-down formula as written equals the corrected one |
| HexWidget.ScrollTargetAsWrittenAtLineStart | hexwidget.go:673-676 | as written, a cursor at a line start that scrolls down ends up one line below the screen |
| HexWidget.ScrollTargetAsWrittenWithinOneLine | hexwidget.go:664-679 | as written, the target is a line start at or before the cursor, and the cursor's line is at most one line past the screen |
| HexWidget.ScrollTopAsWrittenCounterexample | hexwidget.go:664-683 | cursor 8, top 0, 4 bytes per line, 2 lines: as written the top stays 0 and line 2 is off screen; the corrected top shows it |
| HexWidget.LineShownOnScreen | hexwidget.go:132-136 | a cursor on a shown line is on screen by `onScreen`, except at the top address itself, which the strict comparison leaves out |
| HexWidget.ScrollTopOnScreen | hexwidget.go:664-683 | after scrolling, the cursor is the top address or `onScreen` holds (corrected: see ## Findings) |
| HexWidget.ExtendSelection | hexwidget.go:189-227 | the selected addresses, as a membership test: while dragging, the inclusive span between drag start and addr; on an empty file, or a shift-click with nothing selected, [addr, cursor] when addr < cursor, otherwise [cursor, addr); otherwise the edge nearer addr is moved |
| HexWidget.ChompEof | hexwidget.go:229-238 | N is never selected afterwards, addresses below N keep their membership, and the cursor moves to N-1 only when N was selected and the cursor was at or past N |
| HexWidget.ChompEofAgrees | hexwidget.go:229-235 | when the selection reaches at most one address past N, the single decrement as written is the corrected chomp |
| HexWidget.UpdatedSelection | hexwidget.go:189-238 | extending and chomping never leaves N selected, so the panic cannot fire; drag flag, drag start and mode are kept (corrected: see ## Findings) |
| HexWidget.UpdatedSelectionAgrees | hexwidget.go:229-238 | from a state whose selection and drag anchor stay within the buffer, the code as written equals the corrected version and never panics |
| HexWidget.MouseCell | hexwidget.go:291-318 | not hovered: nothing changes; mouse down: normal mode, the cursor on addr (addr-1 when dragging onto N); a drag in progress and a shift-click give the selection of the selection update at addr; a plain click empties the selection; a moving click starts a drag anchored at addr; a release ends the drag; N never becomes selected (corrected: see ## Findings) |
| HexWidget.SelectedMinimal1 | hexwidget.go:139-147 | with an empty selection and the cursor before N, the byte under the cursor becomes the selection and nothing else in the view changes; otherwise nothing changes |
| HexWidget.HexViewWidget.constructor | hexwidget.go:95-100 | the widget holds the given view state, buffer size, top and sizes |
| HexWidget.HexViewWidget.ScrollTo | hexwidget.go:664-683 | returns the new top, computed from the cursor and not from the argument (corrected: see ## Findings) |
| HexWidget.HexViewWidget.FinishMove | hexwidget.go:656-662 | the selection becomes (0,0), the cursor is clamped, and the scroll top follows (corrected: see ## Findings) |
| HexWidget.HexViewWidget.MoveRight | hexwidget.go:636-639 | the cursor becomes the old cursor + 1 clamped into [0, N]; the selection becomes (0,0) (corrected: see ## Findings) |
| HexWidget.HexViewWidget.MoveLeft | hexwidget.go:641-644 | the cursor becomes the old cursor - 1, clamped; the selection becomes (0,0) (corrected: see ## Findings) |
| HexWidget.HexViewWidget.MoveDown | hexwidget.go:646-649 | the cursor becomes the old cursor + bytes per line, clamped; the selection becomes (0,0) (corrected: see ## Findings) |
| HexWidget.HexViewWidget.MoveUp | hexwidget.go:651-654 | the cursor becomes the old cursor - bytes per line, clamped; the selection becomes (0,0) (corrected: see ## Findings) |
| HexWidget.HexViewWidget.UpdateSelection | hexwidget.go:189-238 | the view becomes the extended and chomped selection, and N is not selected (corrected: see ## Findings) |
| HexWidget.HexViewWidget.BuildCell | hexwidget.go:280-319 | the view becomes the mouse transition for this cell (corrected: see ## Findings) |
| HexWidget.HexViewWidget.SelectMinimal1 | hexwidget.go:139-147 | the view becomes the one-byte selection under the cursor when nothing was selected |
| HexWidget.HexViewWidget.CancelInput | hexwidget.go:351-353 | only the edit mode changes, to normal |
| Editing.SetCursor | action.go:19 | the cursor lands in [0, N], exactly on the request when that is in range; nothing else in the view changes |
| Editing.RedoView | action.go:52-55 | the redone insert puts the cursor past the byte, as the insert itself does; other records behave as written (corrected: see ## Findings) |
| Editing.PushKeepsHistory | action.go:46-56 | pushing a record whose undo and redo connect the old and new buffers keeps the history invariant |
| Editing.FileUndo | action.go:30-35 | an empty undo stack changes nothing; otherwise the top record moves to the redo stack, redoing it gives the old buffer, and the invariant holds |
| Editing.FileRedo | action.go:23-28 | an empty redo stack changes nothing; otherwise the top record moves to the undo stack, undoing it gives the old buffer, and the invariant holds |
| Editing.RedoAfterUndo | action.go:23-35 | redo right after undo gives back the same file, stacks included |
| Editing.UndoAfterRedo | action.go:23-35 | undo right after redo gives back the same file, stacks included |
| Editing.ActionUndo | action.go:30-35 | undo of the file; the record's cursor and selection are restored on the view; the clipboard is kept |
| Editing.ActionRedo | action.go:23-28 | redo of the file and the record's view; the clipboard is kept (corrected: see ## Findings) |
| Editing.ActionRedoAfterUndoFile | action.go:23-35 | redo after undo restores the file |
| Editing.ActionMove | action.go:13-21 | the cursor moves by `d` within [0, N]; the selection becomes (0,0); the file and clipboard are unchanged |
| Editing.ActionInsert | action.go:37-57 | one byte longer with `b` at the cursor, the cursor at off+1, redo emptied, exactly one insert record pushed |
| Editing.ActionOverWrite | action.go:59-93 | no byte at the cursor: nothing changes; otherwise that byte becomes `b` with the length kept, the cursor at off+1, redo emptied, and the old byte recorded |
| Editing.ActionCut | action.go:95-124 | a rejected range is reported and changes nothing; otherwise the clipboard holds the removed bytes, the buffer loses them, the cursor is at off, the selection is (0,0), redo is emptied and a cut record is pushed; the mode and a drag in progress are kept |
| Editing.ActionCopy | action.go:126-140 | the file is untouched; the clipboard holds the selected bytes, or nothing on error; the selection becomes (off, 0) with the cursor at off; the mode and a drag in progress are kept |
| Editing.ActionPaste | action.go:143-167 | an empty clipboard changes nothing; otherwise the clipboard is inserted in front of the cursor, which stays, and the pasted bytes are selected |
| Editing.AdvanceInput | hexwidget.go:355-365 | at N the mode becomes insert and the byte is appended; insert mode commits exactly the insert action; overwrite mode before N commits exactly the overwrite action; normal mode before N commits nothing |
| Editing.InsertUndoRedo | action.go:47-56 | undo after insert restores the bytes, the undo stack and the view; redo then gives the insert's result again (corrected: see ## Findings) |
| Editing.InsertRedoAsWrittenCursor | action.go:52-55 | as written, the redone insert rebuilds the buffer but leaves the cursor one short of where the insert put it |
| Editing.OverWriteUndoRedo | action.go:81-92 | undo after overwrite restores the old byte and the view; redo writes the new byte again |
| Editing.CutUndoRedo | action.go:112-123 | undo after cut pastes the bytes back and reselects them with the cursor at their start; redo cuts again |
| Editing.PasteUndoRedo | action.go:155-166 | undo after paste removes the pasted bytes and clears the selection; redo pastes again |
| Editing.CutUnderCursor | action.go:101-110 | with nothing selected, growing the selection to the byte under the cursor and cutting takes exactly that byte |
| Editing.DragAcrossCutCounterexample | hexwidget.go:229-238 | cutting under a held drag leaves the anchor past the new end, and the next extension as written keeps N selected, which the panic rejects |
| Global.InitialStateConsistent | global.go:52-56 | no files, no tabs, active index -1, no clipboard; this state is consistent |
| Global.ActiveTab | global.go:58-67 | nothing exactly when the active index is negative; otherwise the tab at that index, whose file is open |
| Global.ActiveFile | global.go:69-78 | nothing exactly when the active index is negative; otherwise the file the active tab names |
| Global.ActiveLookupsAgree | tabs.go:38-58 | in a consistent state both lookups are empty together, and the active file is the one the active tab names |
| Global.EditorOf | global.go:58-78 | the active file, the active tab's view and the clipboard; the file keeps the history invariant |
| Global.MkErr | global.go:88-91 | the message, ": ", then the error text |
| Global.MkErrInjective | global.go:88-91 | the same message with different errors gives different texts |
| Global.Globals.constructor | global.go:52-56 | the initial state, which is consistent and leaves no file without a tab |
| Registry.OpenTab | tabs.go:60-62 | appends one tab with a fresh view on the file; files, active index and clipboard are unchanged |
| Registry.OpenHexFile | file.go:12-35 | an open path is reused without asking the file system; a stat failure, a non-regular file or an open failure is reported and changes nothing; otherwise the file is stored under its path; a tab is appended on success |
| Registry.CloseHexFile | file.go:38-56 | an unknown path is reported and changes nothing; otherwise the path is removed from the files and consistency is kept |
| Registry.CloseTab | tabs.go:64-82 | removes tab t keeping the others' order; steps the active index back when it was t; closes the active tab's file only if no remaining tab names it |
| Registry.Shows | tabs.go:76-80 | true exactly when some tab names the file |
| Registry.CloseActiveKeeps | tabs.go:68-81 | closing the active tab, and its file when no tab shows it any more, keeps the registry consistent and leaves no file without a tab |
| Registry.NoOrphansAfterClose | tabs.go:75-81 | every other open file is still shown by a remaining tab |
| Registry.AppendTabKeeps | tabs.go:60-62 | an appended tab shows its file and keeps consistency |
| Registry.AddFileKeeps | file.go:27-31 | adding a new file with empty history keeps consistency |
| Registry.DropFileKeeps | file.go:46-54 | dropping a file that no tab shows keeps consistency |
| Registry.RemoveActiveTabKeeps | tabs.go:69-73 | removing the active tab and stepping the index back keeps consistency |
| Registry.SelectTab | tabs.go:26-27 | the chosen tab becomes active; nothing else changes |
| Actions.ActionMove | action.go:13-21 | no active tab: nothing changes; otherwise the global state is the pure move applied to the active file and view; consistency is kept |
| Actions.ActionUndo | action.go:30-35 | the same for undo |
| Actions.ActionRedo | action.go:23-28 | the same for redo (corrected: see ## Findings) |
| Actions.ActionInsert | action.go:37-57 | the same for insert |
| Actions.ActionOverWrite | action.go:59-93 | the same for overwrite |
| Actions.ActionCut | action.go:95-124 | the same for cut, returning the reported error |
| Actions.ActionCopy | action.go:126-140 | the same for copy, returning the reported error |
| Actions.ActionPaste | action.go:143-167 | the same for paste |
| Actions.AdvanceInput | hexwidget.go:355-365 | the same for committing a typed byte by edit mode |
| Actions.ActionCloseTab | action.go:255-259 | no active tab: nothing changes; otherwise the active tab is removed and the index steps back; its file is closed exactly when no remaining tab shows it; the clipboard is kept; consistency and tab coverage are kept |
| InputWidget.Rank | inputwidget.go:55-97 | the position of a key in the switch, below 18 |
| InputWidget.FirstFrom | inputwidget.go:55-97 | the first pressed key at or after a position, and no pressed key between |
| InputWidget.FirstKey | inputwidget.go:55-97 | nothing exactly when no key is pressed; otherwise the pressed key the switch tests first |
| InputWidget.CombineSplits | inputwidget.go:127 | `hi<<4 \| lo` splits back into the two nibbles |
| InputWidget.SplitCombines | inputwidget.go:127 | every byte is `hi<<4 \| lo` of its own nibbles |
| InputWidget.Step | inputwidget.go:41-110 | no key: nothing; escape cancels and clears; backspace steps back or cancels from 0; a digit with `at >= 1` and a success callback delivers `hi<<4 \| d` and clears the state, and only then is a byte delivered; any other digit fills `hi` when `at` is 0 and `lo` otherwise, and increments `at`; nibbles stay below 16; `at` stays in {0,1} with a success callback |
| InputWidget.TwoDigitsDeliver | inputwidget.go:98-108 | two digits deliver `d1<<4 \| d2` and clear the box |
| InputWidget.BackspaceRetypesHigh | inputwidget.go:88-104 | digit, backspace, digit leaves the second digit as the high nibble |
| InputWidget.InputHexByte.constructor | inputwidget.go:32-35 | a cleared box with the given callbacks |
| InputWidget.InputHexByte.Attach | inputwidget.go:27-30 | a reused box keeps its nibbles and takes the new callbacks |
| InputWidget.InputHexByte.Reset | inputwidget.go:119-123 | hi, lo and at become 0 |
| InputWidget.InputHexByte.Cancel | inputwidget.go:112-117 | the cancel callback fires if present, and the box is cleared |
| InputWidget.InputHexByte.Success | inputwidget.go:125-130 | with a success callback, it receives `hi<<4 \| lo` and the box is cleared; without one nothing happens |
| InputWidget.InputHexByte.Build | inputwidget.go:41-110 | one frame is one step on the first pressed key |
| LegacyWidget.NumHexDigits | widget/hexWidget.go:20-27 | 0 for addresses up to 0; 16^(d-1) <= addr < 16^d for positive ones |
| LegacyWidget.NumHexDigitsTable | widget/hexWidget_test.go:12-29 | the test table: 0xf, 0xa and 0x01 have 1 digit, 0xff 2, 0xffffff 6, 0xdeadbeef 8 and 0x1111000ffffff 13 |
| LegacyWidget.AddrLabel | widget/hexWidget.go:29-31 | zero-padded upper-case hex digits followed by ": " |
| LegacyWidget.AddrLabelValue | widget/hexWidget.go:29-31 | the digits read back as the address, and they are the same as in the newer label |
| LegacyWidget.BytesPerLine | widget/hexWidget.go:84-89 | the largest multiple of 4 not above maxChars, which may be 0 |
| LegacyWidget.BytesPerLineRevisions | widget/hexWidget.go:84-89 | the newer revision differs only by turning 0 into 4 |
| LegacyWidget.ClampAddr | widget/hexWidget.go:223-230 | on a non-empty buffer the result is in [0, N-1], the identity inside it; negatives go to 0 and the rest to N-1 |
| LegacyWidget.ClampAddrIdempotent | widget/hexWidget.go:223-230 | idempotent on a non-empty buffer; on an empty one it alternates between -1 and 0 |
| LegacyWidget.ScrollLine | widget/hexWidget.go:258-277 | 0 bytes per line aborts; otherwise the first visible line is at or before the cursor's line and at most one screen behind it |
| LegacyWidget.ScrollLineBound | widget/hexWidget.go:258-277 | the same bound on the clamped top line |
| LegacyWidget.HexView.constructor | widget/hexWidget.go:72-78 | the view holds the caller's cursor, selection and scroll line, with the given size and line sizes |
| LegacyWidget.HexView.ScrollTo | widget/hexWidget.go:258-277 | the scroll line becomes the line of the clamped new top |
| LegacyWidget.HexView.FinishMove | widget/hexWidget.go:252-256 | the cursor is clamped into [0, N-1] and the scroll follows |
| LegacyWidget.HexView.MoveRight | widget/hexWidget.go:232-235 | the cursor becomes the old cursor + 1, clamped; the selection is untouched |
| LegacyWidget.HexView.MoveLeft | widget/hexWidget.go:237-240 | the cursor becomes the old cursor - 1, clamped; the selection is untouched |
| LegacyWidget.HexView.MoveDown | widget/hexWidget.go:242-245 | the cursor becomes the old cursor + bytes per line, clamped; the selection is untouched |
| LegacyWidget.HexView.MoveUp | widget/hexWidget.go:247-250 | the cursor becomes the old cursor - bytes per line, clamped; the selection is untouched |

## Left out

- Rendering and everything else on screen: the hex dump printers, `printBG`, `printCursor`, `Build`'s layout, `calcSizes`, the tab bar widget, and the text the input box shows. They have no contract beyond what they draw.
- Floating point: `bytesPerLine` starts from the integer character count, and `ScrollTo` returns the new top address instead of setting the float scroll offset. The legacy view keeps the scroll offset as a whole line number.
- Input polling (`IsKeyPressed`, `IsMouseDown`, `IsItemHovered`, mouse movement). Its answers are parameters: `MouseInput` and the set of pressed keys.
- `printByte`: it depends on Unicode's printable classes, which are not modelled.
- The file dialogs, the menus, saving, new file, quitting, and the older package-main drafts (widget.go, hexdunk.go, main.go). widget.go and hexdunk.go are not part of this model.
- The file system: stat and open are the `Registry.FileProbe` input. A file's `stats` are not modelled; the `dirty` flag is carried along but never set.
- Aliasing. The clipboard is a detached byte sequence, not a tree shared with a file. An undo record is a value, not a closure holding the tab and file by pointer. A tab's view and the widget's view state are one value copied between them.
- `HexFile.Cut`, `Copy`, `Paste`, `Undo`, `Redo`, `addUndo`, `emptyRedo` and `tab.setCursor` are not part of this model. They are modelled as the `FileBuf` operations plus two stacks:
  - `Cut` and `Copy` reject a size of zero or less and a range outside the buffer;
  - `setCursor` clamps into [0, N] like `clampAddr`;
  - a failed `Copy` leaves the clipboard empty.
- An undo or redo record restores the view of the tab that is active when it runs.
- HexWidget.ScrollTop, HexWidget.ScrollTopOnScreen, HexWidget.HexViewWidget.ScrollTo, FinishMove, MoveRight, MoveLeft, MoveDown and MoveUp: compute the corrected scroll-down top of the first "## Findings" row, not the formula at hexwidget.go:673-676; the code as written is `HexWidget.ScrollTopAsWritten`.
- HexWidget.UpdatedSelection, HexWidget.MouseCell, HexWidget.HexViewWidget.UpdateSelection and BuildCell: use the corrected end-of-data chomp of the third "## Findings" row, so they never abort; the code as written is `HexWidget.UpdatedSelectionAsWritten`.
- Editing.RedoView, Editing.ActionRedo, Editing.InsertUndoRedo and Actions.ActionRedo: a redone insert puts the cursor past the byte, the correction of the second "## Findings" row; the code as written is `Editing.ActionRedoAsWritten`.
- The history invariant `Editing.HistoryOk`, part of `Globals.Valid()`, assumes every edit of a buffer goes through the editing actions. The menu's Edit>Cut and Edit>Paste (menu.go:36-44, 57-63) cut from and paste into the buffer directly and push no undo record, so in the program a later undo can meet a buffer its record no longer fits. The menu is not part of this model.
- Editing.ActionInsert, Editing.ActionPaste, Editing.AdvanceInput, Actions.ActionInsert, Actions.ActionPaste, Actions.AdvanceInput: require the cursor in [0, N] (for AdvanceInput, whenever it commits an insert), because the buffer calls are not shown for other offsets. During a drag over an empty buffer the cursor can reach -1.
- Registry.CloseTab: its guarantees about consistency are stated only for closing the active tab, which is the only call in the program. For another tab the code considers the active tab's file for closing, not tab t's, and the active index can end up past the shorter list.
- Registry.CloseTab: requires t below the number of tabs. The guard in the code lets t equal to the number of tabs through, and the slice operation then aborts.
- `ActiveTab` and `ActiveFile` are declared twice, in tabs.go and global.go, with the same bodies. They are modelled once.
- LegacyWidget.HexView.ScrollTo, LegacyWidget.HexView.FinishMove, LegacyWidget.HexView.MoveRight, LegacyWidget.HexView.MoveLeft, LegacyWidget.HexView.MoveDown, LegacyWidget.HexView.MoveUp: require a non-zero line width, where the code would abort on the division.

## Findings

| source | as written | input that shows it | evidently intended | confidence | as-written member | corrected member |
|---|---|---|---|---|---|---|
| hexwidget.go:673-676 | scrolls down only when the cursor is strictly past top + lines·width, and rounds `cursor - lines·width` up to a line start | cursor 8, top 0, 4 bytes per line, 2 lines, 8 bytes: the top stays 0 and the cursor's line 2 is below the screen | scroll whenever the cursor's line is not on screen, to the line that makes it the last one shown | not executed | HexWidget.ScrollTopAsWrittenCounterexample | HexWidget.ScrollTop |
| action.go:52-55 | the insert record's redo sets the cursor to `off` | insert at 0, undo, redo: the cursor is 0 where the insert left it at 1 | redo leaves the view as the action did, past the inserted byte, as the overwrite record's redo does | not executed | Editing.InsertRedoAsWrittenCursor | Editing.RedoView |
| hexwidget.go:229-238 | one decrement of the selection size is expected to take N out of the selection | a 10-byte file, a drag anchored at 9 with 5..9 selected, cut; dragging on to 3 selects 3..9 over a 5-byte buffer, and the check panics | trim the selection to end at N | not executed | Editing.DragAcrossCutCounterexample | HexWidget.ChompEof |

=== FILE: actions.dfy ===
/**
 * The editing actions as they run on the global state: each looks up the
 * active tab and its file, does nothing when there is none, and otherwise
 * edits the file's buffer, moves the tab's view, updates the clipboard and
 * pushes its undo record, step by step. Each is proved to produce the state
 * the corresponding function of `Editing` describes.
 */
module Actions {
  import opened Wrappers
  import opened FileBuf
  import opened HexWidget
  import Editing
  import opened Global
  import Registry

  /** The active view's cursor is an insertion point of its file. */
  predicate CursorInFile(s: GlobalState)
    requires Consistent(s)
  {
    s.activeTab >= 0 ==> 0 <= EditorOf(s).view.cursor <= |EditorOf(s).file.buf|
  }

  /** Write the active tab's file and view back. */
  method StoreActive(g: Globals, file: Editing.HexFile, view: HexViewState)
    requires g.Valid() && g.activeTab >= 0
    requires file.name == g.tabs[g.activeTab].name && Editing.HistoryOk(file)
    modifies g
    ensures g.Snapshot() == WithEditor(old(g.Snapshot()), Editing.Editor(file, view, old(g.clipBoard)))
    ensures g.Valid()
  {
    var name := g.tabs[g.activeTab].name;
    g.files := g.files[name := file];
    g.tabs := g.tabs[g.activeTab := HexTab(name, view)];
  }

  method ActionMove(g: Globals, d: int)
    requires g.Valid()
    modifies g
    ensures g.Valid()
    ensures old(g.activeTab) < 0 ==> g.Snapshot() == old(g.Snapshot())
    ensures old(g.activeTab) >= 0 ==>
      g.Snapshot() == WithEditor(old(g.Snapshot()), Editing.ActionMove(EditorOf(old(g.Snapshot())), d))
  {
    if g.activeTab < 0 {
      return;
    }
    var tab := g.tabs[g.activeTab];
    var file := g.files[tab.name];
    var view := Editing.SetCursor(tab.view, tab.view.cursor + d, |file.buf|);
    view := view.SetSelection(0, 0);
    StoreActive(g, file, view);
  }

  method ActionUndo(g: Globals)
    requires g.Valid()
    modifies g
    ensures g.Valid()
    ensures old(g.activeTab) < 0 ==> g.Snapshot() == old(g.Snapshot())
    ensures old(g.activeTab) >= 0 ==>
      g.Snapshot() == WithEditor(old(g.Snapshot()), Editing.ActionUndo(EditorOf(old(g.Snapshot()))))
  {
    if g.activeTab < 0 {
      return;
    }
    var tab := g.tabs[g.activeTab];
    var file := g.files[tab.name];
    if file.undo == [] {
      WithEditorSame(g.Snapshot());
      return;
    }
    var rec := Editing.Last(file.undo);
    file := Editing.FileUndo(file);
    var view := Editing.UndoView(rec, tab.view, |file.buf|);
    StoreActive(g, file, view);
  }

  method ActionRedo(g: Globals)
    requires g.Valid()
    modifies g
    ensures g.Valid()
    ensures old(g.activeTab) < 0 ==> g.Snapshot() == old(g.Snapshot())
    ensures old(g.activeTab) >= 0 ==>
      g.Snapshot() == WithEditor(old(g.Snapshot()), Editing.ActionRedo(EditorOf(old(g.Snapshot()))))
  {
    if g.activeTab < 0 {
      return;
    }
    var tab := g.tabs[g.activeTab];
    var file := g.files[tab.name];
    if file.redo == [] {
      WithEditorSame(g.Snapshot());
      return;
    }
    var rec := Editing.Last(file.redo);
    file := Editing.FileRedo(file);
    var view := Editing.RedoView(rec, tab.view, |file.buf|);
    StoreActive(g, file, view);
  }

  method ActionInsert(g: Globals, b: Byte)
    requires g.Valid() && CursorInFile(g.Snapshot())
    modifies g
    ensures g.Valid()
    ensures old(g.activeTab) < 0 ==> g.Snapshot() == old(g.Snapshot())
    ensures old(g.activeTab) >= 0 ==>
      g.Snapshot() == WithEditor(old(g.Snapshot()), Editing.ActionInsert(EditorOf(old(g.Snapshot())), b))
  {
    if g.activeTab < 0 {
      return;
    }
    Editing.InsertUndoRedo(EditorOf(g.Snapshot()), b);
    var tab := g.tabs[g.activeTab];
    var file := g.files[tab.name];
    var off := tab.view.cursor;
    file := file.(buf := Insert1(file.buf, off, b));
    var view := Editing.SetCursor(tab.view, off + 1, |file.buf|);
    file := file.(redo := []);
    file := file.(undo := file.undo + [Editing.InsertRec(off, b)]);
    StoreActive(g, file, view);
  }

  method ActionOverWrite(g: Globals, b: Byte)
    requires g.Valid()
    modifies g
    ensures g.Valid()
    ensures old(g.activeTab) < 0 ==> g.Snapshot() == old(g.Snapshot())
    ensures old(g.activeTab) >= 0 ==>
      g.Snapshot() == WithEditor(old(g.Snapshot()), Editing.ActionOverWrite(EditorOf(old(g.Snapshot())), b))
  {
    if g.activeTab < 0 {
      return;
    }
    var tab := g.tabs[g.activeTab];
    var file := g.files[tab.name];
    var off := tab.view.cursor;
    var read := ReadAt(file.buf, off);
    if read.None? {
      WithEditorSame(g.Snapshot());
      return;
    }
    Editing.OverWriteUndoRedo(EditorOf(g.Snapshot()), b);
    var overwritten := read.value;
    file := file.(buf := Remove(file.buf, off, 1));
    file := file.(buf := Insert1(file.buf, off, b));
    var view := Editing.SetCursor(tab.view, off + 1, |file.buf|);
    file := file.(redo := []);
    file := file.(undo := file.undo + [Editing.OverwriteRec(off, overwritten, b)]);
    StoreActive(g, file, view);
  }

  method ActionCut(g: Globals) returns (err: Option<RangeError>)
    requires g.Valid()
    modifies g
    ensures g.Valid()
    ensures old(g.activeTab) < 0 ==> g.Snapshot() == old(g.Snapshot()) && err.None?
    ensures old(g.activeTab) >= 0 ==>
      var (e, failure) := Editing.ActionCut(EditorOf(old(g.Snapshot())));
      g.Snapshot() == WithEditor(old(g.Snapshot()), e) && err == failure
  {
    if g.activeTab < 0 {
      return None;
    }
    var tab := g.tabs[g.activeTab];
    var file := g.files[tab.name];
    var (off, size) := tab.view.Selection();
    var res := Cut(file.buf, off, size);
    if res.Err? {
      WithEditorSame(g.Snapshot());
      return Some(res.error);
    }
    Editing.CutUndoRedo(EditorOf(g.Snapshot()));
    var (rest, cut) := res.value;
    g.clipBoard := Some(cut);
    file := file.(buf := rest);
    var view := Editing.SetCursor(tab.view, off, |file.buf|);
    view := view.SetSelection(0, 0);
    file := file.(redo := []);
    file := file.(undo := file.undo + [Editing.CutRec(off, size, cut)]);
    StoreActive(g, file, view);
    err := None;
  }

  method ActionCopy(g: Globals) returns (err: Option<RangeError>)
    requires g.Valid()
    modifies g
    ensures g.Valid()
    ensures old(g.activeTab) < 0 ==> g.Snapshot() == old(g.Snapshot()) && err.None?
    ensures old(g.activeTab) >= 0 ==>
      var (e, failure) := Editing.ActionCopy(EditorOf(old(g.Snapshot())));
      g.Snapshot() == WithEditor(old(g.Snapshot()), e) && err == failure
  {
    if g.activeTab < 0 {
      return None;
    }
    var tab := g.tabs[g.activeTab];
    var file := g.files[tab.name];
    var (off, size) := tab.view.Selection();
    var res := Copy(file.buf, off, size);
    if res.Err? {
      err := Some(res.error);
      g.clipBoard := None;
    } else {
      err := None;
      g.clipBoard := Some(res.value);
    }
    var view := Editing.SetCursor(tab.view, off, |file.buf|);
    view := view.SetSelection(off, 0);
    StoreActive(g, file, view);
  }

  method ActionPaste(g: Globals)
    requires g.Valid() && CursorInFile(g.Snapshot())
    modifies g
    ensures g.Valid()
    ensures old(g.activeTab) < 0 ==> g.Snapshot() == old(g.Snapshot())
    ensures old(g.activeTab) >= 0 ==>
      g.Snapshot() == WithEditor(old(g.Snapshot()), Editing.ActionPaste(EditorOf(old(g.Snapshot()))))
  {
    if g.clipBoard.None? || g.activeTab < 0 {
      if g.activeTab >= 0 {
        WithEditorSame(g.Snapshot());
      }
      return;
    }
    Editing.PasteUndoRedo(EditorOf(g.Snapshot()));
    var tab := g.tabs[g.activeTab];
    var file := g.files[tab.name];
    var off := tab.view.cursor;
    var data := g.clipBoard.value;
    file := file.(buf := Paste(file.buf, off, data));
    var view := tab.view.SetSelection(off, |data|);
    file := file.(redo := []);
    file := file.(undo := file.undo + [Editing.PasteRec(off, data)]);
    StoreActive(g, file, view);
  }

  /**
   * A completed byte from the nibble input: at or past the end of data the
   * view switches to insert mode, then the mode decides between insert,
   * overwrite and nothing.
   */
  method AdvanceInput(g: Globals, b: Byte)
    requires g.Valid()
    requires g.activeTab >= 0 ==>
      var e := EditorOf(g.Snapshot());
      e.view.cursor >= |e.file.buf| || e.view.editmode == InsertMode ==> 0 <= e.view.cursor <= |e.file.buf|
    modifies g
    ensures g.Valid()
    ensures old(g.activeTab) < 0 ==> g.Snapshot() == old(g.Snapshot())
    ensures old(g.activeTab) >= 0 ==>
      g.Snapshot() == WithEditor(old(g.Snapshot()), Editing.AdvanceInput(EditorOf(old(g.Snapshot())), b))
  {
    if g.activeTab < 0 {
      return;
    }
    ghost var s := g.Snapshot();
    var tab := g.tabs[g.activeTab];
    var file := g.files[tab.name];
    var view := tab.view;
    if view.cursor >= |file.buf| {
      view := view.(editmode := InsertMode);
      StoreActive(g, file, view);
    } else {
      WithEditorSame(s);
    }
    ghost var e1 := EditorOf(g.Snapshot());
    match view.editmode {
      case InsertMode =>
        ActionInsert(g, b);
        WithEditorTwice(s, e1, Editing.ActionInsert(e1, b));
      case OverwriteMode =>
        ActionOverWrite(g, b);
        WithEditorTwice(s, e1, Editing.ActionOverWrite(e1, b));
      case NormalMode =>
    }
  }

  /** Close the active tab, if there is one. */
  method ActionCloseTab(g: Globals)
    requires g.Valid()
    modifies g
    ensures g.Valid()
    ensures old(g.activeTab) < 0 ==> g.Snapshot() == old(g.Snapshot())
    ensures old(g.activeTab) >= 0 ==> g.tabs == old(g.tabs[..g.activeTab] + g.tabs[g.activeTab + 1..])
    ensures old(g.activeTab) >= 0 ==> g.activeTab == old(g.activeTab) - 1
    ensures old(g.activeTab) >= 0 ==>
      var name := old(g.tabs[g.activeTab].name);
      g.files == if NamedBy(g.tabs, name) then old(g.files) else old(g.files) - {name}
    ensures g.clipBoard == old(g.clipBoard)
    ensures NoOrphans(old(g.Snapshot())) ==> NoOrphans(g.Snapshot())
  {
    if g.activeTab >= 0 {
      Registry.CloseTab(g, g.activeTab);
    }
  }
}

=== FILE: editing.dfy ===
/**
 * The editing actions of an open file and their undo history. Each
 * mutating action edits the buffer, moves the view, empties the redo stack
 * and pushes one record; a record names the edit and carries what its undo
 * and its redo need (offset, byte or bytes), instead of two closures.
 */
module Editing {
  import opened Wrappers
  import opened FileBuf
  import opened HexWidget

  /** One undoable edit. */
  datatype Record =
    | InsertRec(off: int, b: Byte)
    | OverwriteRec(off: int, overwritten: Byte, b: Byte)
    | CutRec(off: int, size: int, cut: seq<Byte>)
    | PasteRec(off: int, data: seq<Byte>)

  /** An open file: its bytes and its two history stacks, most recent last. */
  datatype HexFile = HexFile(name: string, buf: seq<Byte>, dirty: bool, undo: seq<Record>, redo: seq<Record>)

  /** What an action sees: the active file, the active tab's view and the clipboard. */
  datatype Editor = Editor(file: HexFile, view: HexViewState, clip: Option<seq<Byte>>)

  function Last<T>(s: seq<T>): T
    requires s != []
  {
    s[|s| - 1]
  }

  /** The tab's cursor setter: the cursor is kept within [0, N] like every other cursor move. */
  function SetCursor(v: HexViewState, a: int, n: nat): (r: HexViewState)
    ensures 0 <= r.cursor <= n
    ensures 0 <= a <= n ==> r.cursor == a
    ensures r.Selection() == v.Selection() && r.editmode == v.editmode
    ensures r.dragging == v.dragging && r.dragstart == v.dragstart
  {
    v.(cursor := ClampAddr(a, n))
  }

  /** Empty the redo stack, then push `rec`, with the buffer now `buf`. */
  function Push(f: HexFile, buf: seq<Byte>, rec: Record): HexFile {
    f.(buf := buf, undo := f.undo + [rec], redo := [])
  }

  // ---------------------------------------------------------------------
  // Replaying records

  /** The buffer after undoing `r`, or None when its offsets do not fit the buffer. */
  function ApplyUndo(r: Record, buf: seq<Byte>): Option<seq<Byte>> {
    match r
    case InsertRec(off, _) =>
      if 0 <= off && off + 1 <= |buf| then Some(Remove(buf, off, 1)) else None
    case OverwriteRec(off, overwritten, _) =>
      if 0 <= off < |buf| then Some(Insert1(Remove(buf, off, 1), off, overwritten)) else None
    case CutRec(off, _, cut) =>
      if 0 <= off <= |buf| then Some(Paste(buf, off, cut)) else None
    case PasteRec(off, data) =>
      if 0 <= off && off + |data| <= |buf| then Some(Remove(buf, off, |data|)) else None
  }

  /** The buffer after redoing `r`, or None when its offsets do not fit the buffer. */
  function ApplyRedo(r: Record, buf: seq<Byte>): Option<seq<Byte>> {
    match r
    case InsertRec(off, b) =>
      if 0 <= off <= |buf| then Some(Insert1(buf, off, b)) else None
    case OverwriteRec(off, _, b) =>
      if 0 <= off < |buf| then Some(Insert1(Remove(buf, off, 1), off, b)) else None
    case CutRec(off, size, _) =>
      if 0 <= off && 0 <= size && off + size <= |buf| then Some(Remove(buf, off, size)) else None
    case PasteRec(off, data) =>
      if 0 <= off <= |buf| then Some(Paste(buf, off, data)) else None
  }

  /** The view an undo leaves, for a buffer of `n` bytes afterwards. */
  function UndoView(r: Record, v: HexViewState, n: nat): HexViewState {
    match r
    case InsertRec(off, _) => SetCursor(v, off, n)
    case OverwriteRec(off, _, _) => SetCursor(v, off, n)
    case CutRec(off, _, cut) => SetCursor(v, off, n).SetSelection(off, |cut|)
    case PasteRec(off, _) => SetCursor(v, off, n).SetSelection(0, 0)
  }

  /** The view a redo leaves as the records are written: a redone insert leaves the cursor on the inserted byte. */
  function RedoViewAsWritten(r: Record, v: HexViewState, n: nat): HexViewState {
    match r
    case InsertRec(off, _) => SetCursor(v, off, n)
    case OverwriteRec(off, _, _) => SetCursor(v, off + 1, n)
    case CutRec(off, _, _) => SetCursor(v, off, n).SetSelection(0, 0)
    case PasteRec(off, data) => SetCursor(v, off, n).SetSelection(off, |data|)
  }

  /** The view a redo leaves, with a redone insert advancing the cursor past the byte as the insert itself does. */
  function RedoView(r: Record, v: HexViewState, n: nat): (w: HexViewState)
    ensures r.InsertRec? ==> w == SetCursor(v, r.off + 1, n)
    ensures !r.InsertRec? ==> w == RedoViewAsWritten(r, v, n)
  {
    match r
    case InsertRec(off, _) => SetCursor(v, off + 1, n)
    case _ => RedoViewAsWritten(r, v, n)
  }

  // ---------------------------------------------------------------------
  // The history invariant

  /**
   * Every record on the undo stack, from the top down, can be undone on the
   * buffer it finds and redoing it gives that buffer back.
   */
  predicate UndoChain(buf: seq<Byte>, undo: seq<Record>)
    decreases |undo|
  {
    undo == [] ||
    (var r := Last(undo);
     var prev := ApplyUndo(r, buf);
     prev.Some? && ApplyRedo(r, prev.value) == Some(buf) && UndoChain(prev.value, undo[..|undo| - 1]))
  }

  /** The same for the redo stack, with redo and undo exchanged. */
  predicate RedoChain(buf: seq<Byte>, redo: seq<Record>)
    decreases |redo|
  {
    redo == [] ||
    (var r := Last(redo);
     var next := ApplyRedo(r, buf);
     next.Some? && ApplyUndo(r, next.value) == Some(buf) && RedoChain(next.value, redo[..|redo| - 1]))
  }

  predicate HistoryOk(f: HexFile) {
    UndoChain(f.buf, f.undo) && RedoChain(f.buf, f.redo)
  }

  /** Pushing a record whose undo and redo connect the old and new buffers keeps the history consistent. */
  lemma PushKeepsHistory(f: HexFile, buf: seq<Byte>, rec: Record)
    requires HistoryOk(f)
    requires ApplyUndo(rec, buf) == Some(f.buf) && ApplyRedo(rec, f.buf) == Some(buf)
    ensures HistoryOk(Push(f, buf, rec))
  {
    var g := Push(f, buf, rec);
    assert g.undo[..|g.undo| - 1] == f.undo;
  }

  // ---------------------------------------------------------------------
  // Undo and redo

  /** Pop the top undo record, undo it on the buffer and push it on the redo stack. */
  function FileUndo(f: HexFile): (g: HexFile)
    requires HistoryOk(f)
    ensures f.undo == [] ==> g == f
    ensures f.undo != [] ==>
      && g.undo == f.undo[..|f.undo| - 1]
      && g.redo == f.redo + [Last(f.undo)]
      && ApplyRedo(Last(f.undo), g.buf) == Some(f.buf)
    ensures g.name == f.name && g.dirty == f.dirty
    ensures HistoryOk(g)
  {
    if f.undo == [] then f
    else
      var r := Last(f.undo);
      var g := f.(buf := ApplyUndo(r, f.buf).value, undo := f.undo[..|f.undo| - 1], redo := f.redo + [r]);
      assert g.redo[..|g.redo| - 1] == f.redo;
      g
  }

  /** Pop the top redo record, redo it on the buffer and push it back on the undo stack. */
  function FileRedo(f: HexFile): (g: HexFile)
    requires HistoryOk(f)
    ensures f.redo == [] ==> g == f
    ensures f.redo != [] ==>
      && g.redo == f.redo[..|f.redo| - 1]
      && g.undo == f.undo + [Last(f.redo)]
      && ApplyUndo(Last(f.redo), g.buf) == Some(f.buf)
    ensures g.name == f.name && g.dirty == f.dirty
    ensures HistoryOk(g)
  {
    if f.redo == [] then f
    else
      var r := Last(f.redo);
      var g := f.(buf := ApplyRedo(r, f.buf).value, redo := f.redo[..|f.redo| - 1], undo := f.undo + [r]);
      assert g.undo[..|g.undo| - 1] == f.undo;
      g
  }

  /** Redo right after undo puts the file back as it was, stacks included. */
  lemma RedoAfterUndo(f: HexFile)
    requires HistoryOk(f) && f.undo != []
    ensures FileRedo(FileUndo(f)) == f
  {
    var g := FileUndo(f);
    assert g.redo[..|g.redo| - 1] == f.redo;
    assert g.undo + [Last(f.undo)] == f.undo;
  }

  /** Undo right after redo puts the file back as it was, stacks included. */
  lemma UndoAfterRedo(f: HexFile)
    requires HistoryOk(f) && f.redo != []
    ensures FileUndo(FileRedo(f)) == f
  {
    var g := FileRedo(f);
    assert g.undo[..|g.undo| - 1] == f.undo;
    assert g.redo + [Last(f.redo)] == f.redo;
  }

  /** `actionUndo`: undo on the file; the record's view is restored on the active view. */
  function ActionUndo(e: Editor): (r: Editor)
    requires HistoryOk(e.file)
    ensures HistoryOk(r.file) && r.clip == e.clip
    ensures e.file.undo == [] ==> r == e
    ensures e.file.undo != [] ==> r.file == FileUndo(e.file) && r.view == UndoView(Last(e.file.undo), e.view, |r.file.buf|)
  {
    if e.file.undo == [] then e
    else
      var f := FileUndo(e.file);
      Editor(f, UndoView(Last(e.file.undo), e.view, |f.buf|), e.clip)
  }

  /** `actionRedo`, with the corrected insert cursor. */
  function ActionRedo(e: Editor): (r: Editor)
    requires HistoryOk(e.file)
    ensures HistoryOk(r.file) && r.clip == e.clip
    ensures e.file.redo == [] ==> r == e
    ensures e.file.redo != [] ==> r.file == FileRedo(e.file) && r.view == RedoView(Last(e.file.redo), e.view, |r.file.buf|)
  {
    if e.file.redo == [] then e
    else
      var f := FileRedo(e.file);
      Editor(f, RedoView(Last(e.file.redo), e.view, |f.buf|), e.clip)
  }

  /** `actionRedo` with the records' views as written. */
  function ActionRedoAsWritten(e: Editor): Editor
    requires HistoryOk(e.file)
  {
    if e.file.redo == [] then e
    else
      var f := FileRedo(e.file);
      Editor(f, RedoViewAsWritten(Last(e.file.redo), e.view, |f.buf|), e.clip)
  }

  /** Redo after undo reproduces the file exactly, whatever the history holds. */
  lemma ActionRedoAfterUndoFile(e: Editor)
    requires HistoryOk(e.file) && e.file.undo != []
    ensures ActionRedo(ActionUndo(e)).file == e.file
  {
    RedoAfterUndo(e.file);
  }

  // ---------------------------------------------------------------------
  // The actions

  /** `actionMove`: move the cursor by `d` within [0, N] and drop the selection. */
  function ActionMove(e: Editor, d: int): (r: Editor)
    ensures r.file == e.file && r.clip == e.clip
    ensures 0 <= r.view.cursor <= |e.file.buf|
    ensures 0 <= e.view.cursor + d <= |e.file.buf| ==> r.view.cursor == e.view.cursor + d
    ensures r.view.Selection() == (0, 0)
    ensures r.view.editmode == e.view.editmode && r.view.dragging == e.view.dragging
  {
    Editor(e.file, SetCursor(e.view, e.view.cursor + d, |e.file.buf|).SetSelection(0, 0), e.clip)
  }

  /** `actionInsert`: insert `b` at the cursor and step past it. */
  function ActionInsert(e: Editor, b: Byte): (r: Editor)
    requires 0 <= e.view.cursor <= |e.file.buf|
    ensures var off := e.view.cursor;
      && |r.file.buf| == |e.file.buf| + 1
      && r.file.buf[off] == b
      && r.file.buf[..off] == e.file.buf[..off] && r.file.buf[off + 1..] == e.file.buf[off..]
      && r.view.cursor == off + 1
      && r.file.redo == []
      && r.file.undo == e.file.undo + [InsertRec(off, b)]
    ensures r.view.Selection() == e.view.Selection() && r.view.editmode == e.view.editmode
    ensures r.clip == e.clip && r.file.name == e.file.name
  {
    var off := e.view.cursor;
    var buf := Insert1(e.file.buf, off, b);
    Editor(Push(e.file, buf, InsertRec(off, b)), SetCursor(e.view, off + 1, |buf|), e.clip)
  }

  /**
   * `actionOverWrite`: nothing happens when there is no byte at the cursor;
   * otherwise the byte there is replaced, remembered in the record, and the
   * cursor steps past it.
   */
  function ActionOverWrite(e: Editor, b: Byte): (r: Editor)
    ensures ReadAt(e.file.buf, e.view.cursor).None? ==> r == e
    ensures var off := e.view.cursor;
      0 <= off < |e.file.buf| ==>
        && r.file.buf == e.file.buf[off := b]
        && r.view.cursor == off + 1
        && r.file.redo == []
        && r.file.undo == e.file.undo + [OverwriteRec(off, e.file.buf[off], b)]
        && r.view.Selection() == e.view.Selection()
    ensures r.clip == e.clip && r.file.name == e.file.name && r.view.editmode == e.view.editmode
  {
    var off := e.view.cursor;
    match ReadAt(e.file.buf, off)
    case None => e
    case Some(overwritten) =>
      var buf := Insert1(Remove(e.file.buf, off, 1), off, b);
      ReplaceIsUpdate(e.file.buf, off, b);
      Editor(Push(e.file, buf, OverwriteRec(off, overwritten, b)), SetCursor(e.view, off + 1, |buf|), e.clip)
  }

  /**
   * `actionCut`: cut the selection into the clipboard. A refused range is
   * reported and changes nothing; otherwise the cursor goes to the start of
   * the cut and the selection is dropped.
   */
  function ActionCut(e: Editor): (r: (Editor, Option<RangeError>))
    ensures var (off, size) := e.view.Selection();
      && (r.1.Some? <==> CheckRange(|e.file.buf|, off, size).Some?)
      && (r.1.Some? ==> r.1 == CheckRange(|e.file.buf|, off, size) && r.0 == e)
    ensures var (off, size) := e.view.Selection();
      r.1.None? ==>
        && 0 <= off && 0 < size && off + size <= |e.file.buf|
        && r.0.clip == Some(e.file.buf[off..off + size])
        && r.0.file.buf == e.file.buf[..off] + e.file.buf[off + size..]
        && r.0.view.cursor == off && r.0.view.Selection() == (0, 0)
        && r.0.file.redo == []
        && r.0.file.undo == e.file.undo + [CutRec(off, size, e.file.buf[off..off + size])]
    ensures r.0.file.name == e.file.name && r.0.view.editmode == e.view.editmode
    ensures r.0.view.dragging == e.view.dragging && r.0.view.dragstart == e.view.dragstart
  {
    var (off, size) := e.view.Selection();
    match Cut(e.file.buf, off, size)
    case Err(err) => (e, Some(err))
    case Ok((rest, cut)) =>
      RemovePaste(rest, off, cut);
      var v := SetCursor(e.view, off, |rest|).SetSelection(0, 0);
      (Editor(Push(e.file, rest, CutRec(off, size, cut)), v, Some(cut)), None)
  }

  /**
   * `actionCopy`: copy the selection into the clipboard; a refused range
   * leaves the clipboard empty. Either way the cursor goes to the start of
   * the selection and the selection is collapsed there.
   */
  function ActionCopy(e: Editor): (r: (Editor, Option<RangeError>))
    ensures r.0.file == e.file
    ensures var (off, size) := e.view.Selection();
      && (r.1.Some? <==> CheckRange(|e.file.buf|, off, size).Some?)
      && (r.1.None? ==> r.0.clip == Some(e.file.buf[off..off + size]))
      && (r.1.Some? ==> r.0.clip == None)
      && r.0.view.Selection() == (off, 0)
      && (0 <= off <= |e.file.buf| ==> r.0.view.cursor == off)
    ensures r.0.view.editmode == e.view.editmode
    ensures r.0.view.dragging == e.view.dragging && r.0.view.dragstart == e.view.dragstart
  {
    var (off, size) := e.view.Selection();
    var (clip, err) := match Copy(e.file.buf, off, size)
      case Err(err) => (None, Some(err))
      case Ok(cpy) => (Some(cpy), None);
    (Editor(e.file, SetCursor(e.view, off, |e.file.buf|).SetSelection(off, 0), clip), err)
  }

  /**
   * `actionPaste`: nothing when the clipboard is empty; otherwise the
   * clipboard is inserted in front of the cursor, which stays, and the
   * inserted bytes become the selection.
   */
  function ActionPaste(e: Editor): (r: Editor)
    requires 0 <= e.view.cursor <= |e.file.buf|
    ensures e.clip.None? ==> r == e
    ensures var off := e.view.cursor;
      e.clip.Some? ==>
        && r.file.buf == e.file.buf[..off] + e.clip.value + e.file.buf[off..]
        && r.view.cursor == off
        && r.view.Selection() == (off, |e.clip.value|)
        && r.file.redo == []
        && r.file.undo == e.file.undo + [PasteRec(off, e.clip.value)]
    ensures r.clip == e.clip && r.file.name == e.file.name && r.view.editmode == e.view.editmode
  {
    match e.clip
    case None => e
    case Some(data) =>
      var off := e.view.cursor;
      var buf := Paste(e.file.buf, off, data);
      assert buf == e.file.buf[..off] + data + e.file.buf[off..];
      Editor(Push(e.file, buf, PasteRec(off, data)), e.view.SetSelection(off, |data|), e.clip)
  }

  /**
   * `advanceInput`: a completed byte is committed by the edit mode, and at
   * or past the end of data the mode first becomes insert.
   */
  function AdvanceInput(e: Editor, b: Byte): (r: Editor)
    requires e.view.cursor >= |e.file.buf| || e.view.editmode == InsertMode ==> 0 <= e.view.cursor <= |e.file.buf|
    ensures e.view.cursor < |e.file.buf| && e.view.editmode == NormalMode ==> r == e
    ensures e.view.cursor >= |e.file.buf| ==>
      r.view.editmode == InsertMode && r.file.buf == e.file.buf + [b] && r.view.cursor == |e.file.buf| + 1
    ensures e.view.editmode == InsertMode ==> r == ActionInsert(e, b)
    ensures 0 <= e.view.cursor < |e.file.buf| && e.view.editmode == OverwriteMode ==>
      r == ActionOverWrite(e, b) && r.file.buf == e.file.buf[e.view.cursor := b]
  {
    var e1 := if e.view.cursor >= |e.file.buf| then e.(view := e.view.(editmode := InsertMode)) else e;
    match e1.view.editmode
    case InsertMode =>
      var r := ActionInsert(e1, b);
      assert e.view.cursor >= |e.file.buf| ==> r.file.buf == e.file.buf + [b] by {
        if e.view.cursor >= |e.file.buf| {
          assert r.file.buf == e.file.buf[..|e.file.buf|] + [b] + e.file.buf[|e.file.buf|..];
        }
      }
      r
    case OverwriteMode => ActionOverWrite(e1, b)
    case NormalMode => e1
  }

  // ---------------------------------------------------------------------
  // Each action against its undo and redo

  /** Undoing an insert restores the buffer, the undo stack and the view; redoing it gives the insert's result again. */
  lemma InsertUndoRedo(e: Editor, b: Byte)
    requires HistoryOk(e.file) && 0 <= e.view.cursor <= |e.file.buf|
    ensures HistoryOk(ActionInsert(e, b).file)
    ensures var u := ActionUndo(ActionInsert(e, b));
      u.file.buf == e.file.buf && u.file.undo == e.file.undo && u.view == e.view && u.clip == e.clip
    ensures ActionRedo(ActionUndo(ActionInsert(e, b))) == ActionInsert(e, b)
  {
    var off := e.view.cursor;
    var a := ActionInsert(e, b);
    RemoveInsert1(e.file.buf, off, b);
    PushKeepsHistory(e.file, a.file.buf, InsertRec(off, b));
    assert a.file.undo[..|a.file.undo| - 1] == e.file.undo;
    RedoAfterUndo(a.file);
  }

  /**
   * The insert record's redo as written leaves the cursor on the re-inserted
   * byte, one short of where the insert itself left it.
   */
  lemma InsertRedoAsWrittenCursor(e: Editor, b: Byte)
    requires HistoryOk(e.file) && 0 <= e.view.cursor <= |e.file.buf|
    ensures HistoryOk(ActionInsert(e, b).file)
    ensures HistoryOk(ActionUndo(ActionInsert(e, b)).file)
    ensures ActionRedoAsWritten(ActionUndo(ActionInsert(e, b))).file == ActionInsert(e, b).file
    ensures ActionRedoAsWritten(ActionUndo(ActionInsert(e, b))).view.cursor == ActionInsert(e, b).view.cursor - 1
  {
    InsertUndoRedo(e, b);
  }

  /** Undoing an overwrite puts the old byte back; redoing it writes the new byte again. */
  lemma OverWriteUndoRedo(e: Editor, b: Byte)
    requires HistoryOk(e.file) && 0 <= e.view.cursor < |e.file.buf|
    ensures HistoryOk(ActionOverWrite(e, b).file)
    ensures var u := ActionUndo(ActionOverWrite(e, b));
      u.file.buf == e.file.buf && u.file.undo == e.file.undo && u.view == e.view && u.clip == e.clip
    ensures ActionRedo(ActionUndo(ActionOverWrite(e, b))) == ActionOverWrite(e, b)
  {
    var off := e.view.cursor;
    var a := ActionOverWrite(e, b);
    var rec := OverwriteRec(off, e.file.buf[off], b);
    ReplaceIsUpdate(a.file.buf, off, e.file.buf[off]);
    assert a.file.buf[off := e.file.buf[off]] == e.file.buf;
    PushKeepsHistory(e.file, a.file.buf, rec);
    assert a.file.undo[..|a.file.undo| - 1] == e.file.undo;
    RedoAfterUndo(a.file);
  }

  /**
   * Undoing a cut pastes the cut bytes back and reselects them with the
   * cursor at their start; redoing it cuts them again.
   */
  lemma CutUndoRedo(e: Editor)
    requires HistoryOk(e.file) && ActionCut(e).1.None?
    ensures HistoryOk(ActionCut(e).0.file)
    ensures var u := ActionUndo(ActionCut(e).0);
      && u.file.buf == e.file.buf && u.file.undo == e.file.undo
      && u.view == e.view.(cursor := e.view.selectionStart) && u.clip == ActionCut(e).0.clip
    ensures ActionRedo(ActionUndo(ActionCut(e).0)) == ActionCut(e).0
  {
    var (off, size) := e.view.Selection();
    var a := ActionCut(e).0;
    var cut := e.file.buf[off..off + size];
    assert a.file.buf == Remove(e.file.buf, off, size);
    assert Paste(a.file.buf, off, cut) == e.file.buf by {
      assert e.file.buf == e.file.buf[..off] + cut + e.file.buf[off + size..];
    }
    PushKeepsHistory(e.file, a.file.buf, CutRec(off, size, cut));
    assert a.file.undo[..|a.file.undo| - 1] == e.file.undo;
    RedoAfterUndo(a.file);
  }

  /** Undoing a paste cuts the pasted bytes out again and drops the selection; redoing it pastes them again. */
  lemma PasteUndoRedo(e: Editor)
    requires HistoryOk(e.file) && 0 <= e.view.cursor <= |e.file.buf| && e.clip.Some?
    ensures HistoryOk(ActionPaste(e).file)
    ensures var u := ActionUndo(ActionPaste(e));
      && u.file.buf == e.file.buf && u.file.undo == e.file.undo
      && u.view == e.view.SetSelection(0, 0) && u.clip == e.clip
    ensures ActionRedo(ActionUndo(ActionPaste(e))) == ActionPaste(e)
  {
    var off := e.view.cursor;
    var data := e.clip.value;
    var a := ActionPaste(e);
    RemovePaste(e.file.buf, off, data);
    PushKeepsHistory(e.file, a.file.buf, PasteRec(off, data));
    assert a.file.undo[..|a.file.undo| - 1] == e.file.undo;
    RedoAfterUndo(a.file);
  }

  /** With nothing selected, the keyboard cut takes exactly the byte under the cursor. */
  lemma CutUnderCursor(e: Editor)
    requires 0 <= e.view.cursor < |e.file.buf| && e.view.selectionSize == 0
    ensures var r := ActionCut(e.(view := SelectedMinimal1(e.view, |e.file.buf|)));
      && r.1.None?
      && r.0.clip == Some([e.file.buf[e.view.cursor]])
      && r.0.file.buf == Remove(e.file.buf, e.view.cursor, 1)
  {
    var c := e.view.cursor;
    assert e.file.buf[c..c + 1] == [e.file.buf[c]];
  }

  /**
   * A drag that is still held while its selection is cut: the buffer shrinks
   * from 10 to 5 bytes under a drag anchored at 9, and the next extension of
   * the drag overshoots the end of data by several addresses, more than the
   * single chomp as written takes off.
   */
  lemma DragAcrossCutCounterexample()
    ensures var v := HexViewState(9, 5, 5, true, 9, NormalMode);
      var e := Editor(HexFile("f", seq(10, i => 0 as Byte), false, [], []), v, None);
      var (c, err) := ActionCut(e);
      && err.None? && |c.file.buf| == 5 && c.view.dragging && c.view.dragstart == 9
      && UpdatedSelectionAsWritten(c.view, 3, |c.file.buf|).InSelection(|c.file.buf|)
      && !UpdatedSelection(c.view, 3, |c.file.buf|).InSelection(|c.file.buf|)
  {
    var v := HexViewState(9, 5, 5, true, 9, NormalMode);
    var e := Editor(HexFile("f", seq(10, i => 0 as Byte), false, [], []), v, None);
    var c := ActionCut(e).0;
    assert |c.file.buf| == 5;
    var x := ExtendSelection(c.view, 3, 5);
    assert x.selectionStart == 3 && x.selectionSize == 7;
  }
}

=== FILE: filebuf.dfy ===
/**
 * The byte buffer the editor works on, as a plain sequence of bytes. The
 * operations are named after the calls the editor makes on its buffer
 * (`Insert1`, `Remove`, `Cut`, `Copy`, `Paste`, a one-byte read after a seek).
 * The raw operations require their offsets in range; the checked `Cut` and
 * `Copy` of an open file validate the range and report an error instead.
 */
module FileBuf {
  import opened Wrappers

  type Byte = bv8

  /** Why a checked range operation refused its arguments. */
  datatype RangeError = InvalidRange | RangeOutOfBounds

  /** Insert one byte at `off`, shifting what follows right. */
  function Insert1(buf: seq<Byte>, off: int, b: Byte): (r: seq<Byte>)
    requires 0 <= off <= |buf|
    ensures |r| == |buf| + 1
    ensures r[off] == b
    ensures r[..off] == buf[..off] && r[off + 1..] == buf[off..]
  {
    buf[..off] + [b] + buf[off..]
  }

  /** Remove `n` bytes starting at `off`, shifting what follows left. */
  function Remove(buf: seq<Byte>, off: int, n: int): (r: seq<Byte>)
    requires 0 <= off && 0 <= n && off + n <= |buf|
    ensures |r| == |buf| - n
    ensures r[..off] == buf[..off] && r[off..] == buf[off + n..]
  {
    buf[..off] + buf[off + n..]
  }

  /** Insert a detached run of bytes at `off`. */
  function Paste(buf: seq<Byte>, off: int, data: seq<Byte>): (r: seq<Byte>)
    requires 0 <= off <= |buf|
    ensures |r| == |buf| + |data|
    ensures r[..off] == buf[..off] && r[off..off + |data|] == data && r[off + |data|..] == buf[off..]
  {
    buf[..off] + data + buf[off..]
  }

  /** Seek to `off` and read one byte; a seek before the start or a read at or past the end fails. */
  function ReadAt(buf: seq<Byte>, off: int): (r: Option<Byte>)
    ensures r.Some? <==> 0 <= off < |buf|
    ensures r.Some? ==> r.value == buf[off]
  {
    if 0 <= off < |buf| then Some(buf[off]) else None
  }

  /** The range check of the open file's `Cut` and `Copy`. */
  function CheckRange(n: int, off: int, size: int): (r: Option<RangeError>)
    ensures r == None <==> size > 0 && 0 <= off && off + size <= n
    ensures r == Some(InvalidRange) <==> size <= 0
  {
    if size <= 0 then Some(InvalidRange)
    else if off < 0 || off + size > n then Some(RangeOutOfBounds)
    else None
  }

  /**
   * The open file's `Cut`: on success the remaining buffer and the detached
   * bytes that were removed; pasting them back gives the buffer again.
   */
  function Cut(buf: seq<Byte>, off: int, size: int): (r: Result<(seq<Byte>, seq<Byte>), RangeError>)
    ensures r.Err? <==> CheckRange(|buf|, off, size).Some?
    ensures r.Err? ==> r.error == CheckRange(|buf|, off, size).value
    ensures r.Ok? ==> |r.value.1| == size && |r.value.0| == |buf| - size
    ensures r.Ok? ==> Paste(r.value.0, off, r.value.1) == buf
  {
    match CheckRange(|buf|, off, size)
    case Some(e) => Err(e)
    case None =>
      var rest := Remove(buf, off, size);
      var cut := buf[off..off + size];
      assert Paste(rest, off, cut) == buf by {
        assert buf == buf[..off] + buf[off..off + size] + buf[off + size..];
      }
      Ok((rest, cut))
  }

  /** The open file's `Copy`: the same range check, the buffer is left alone. */
  function Copy(buf: seq<Byte>, off: int, size: int): (r: Result<seq<Byte>, RangeError>)
    ensures r.Err? <==> CheckRange(|buf|, off, size).Some?
    ensures r.Ok? ==> 0 <= off && off + size <= |buf| && r.value == buf[off..off + size]
  {
    match CheckRange(|buf|, off, size)
    case Some(e) => Err(e)
    case None => Ok(buf[off..off + size])
  }

  /** Removing the byte just inserted gives the buffer back. */
  lemma RemoveInsert1(buf: seq<Byte>, off: int, b: Byte)
    requires 0 <= off <= |buf|
    ensures Remove(Insert1(buf, off, b), off, 1) == buf
  {
    var r := Insert1(buf, off, b);
    assert Remove(r, off, 1) == buf[..off] + buf[off..];
    assert buf[..off] + buf[off..] == buf;
  }

  /** Replacing one byte by removing it and inserting another is a point update. */
  lemma ReplaceIsUpdate(buf: seq<Byte>, off: int, b: Byte)
    requires 0 <= off < |buf|
    ensures Insert1(Remove(buf, off, 1), off, b) == buf[off := b]
  {
    var r := Insert1(Remove(buf, off, 1), off, b);
    assert |r| == |buf|;
    forall i | 0 <= i < |buf| ensures r[i] == buf[off := b][i] {
      if i < off {
        assert r[i] == r[..off][i];
      } else if i > off {
        assert r[i] == r[off + 1..][i - off - 1];
      }
    }
  }

  /** Removing a pasted run at the paste offset gives the buffer back, and the removed run is the pasted one. */
  lemma RemovePaste(buf: seq<Byte>, off: int, data: seq<Byte>)
    requires 0 <= off <= |buf|
    ensures Remove(Paste(buf, off, data), off, |data|) == buf
    ensures Paste(buf, off, data)[off..off + |data|] == data
  {
    var r := Paste(buf, off, data);
    assert Remove(r, off, |data|) == buf[..off] + buf[off..];
    assert buf[..off] + buf[off..] == buf;
  }
}

=== FILE: global.dfy ===
/**
 * The editor's global state: the open files by path, the ordered tabs (each
 * a view on an open file), the index of the active tab (-1 for none) and the
 * clipboard shared by all tabs.
 */
module Global {
  import opened Wrappers
  import opened FileBuf
  import opened HexWidget
  import opened Editing

  /** A tab: the path of the file it shows and its own view state. */
  datatype HexTab = HexTab(name: string, view: HexViewState)

  /** A snapshot of the global state. */
  datatype GlobalState = GlobalState(
    files: map<string, HexFile>,
    tabs: seq<HexTab>,
    activeTab: int,
    clip: Option<seq<Byte>>)

  /** The state before anything is opened. */
  const InitialState: GlobalState := GlobalState(map[], [], -1, None)

  /** Some tab shows the file at `path`. */
  predicate NamedBy(tabs: seq<HexTab>, path: string) {
    exists i :: 0 <= i < |tabs| && tabs[i].name == path
  }

  /**
   * The consistency the lookups rely on: the active index is -1 or a tab,
   * every tab shows an open file, every file is filed under its own path and
   * its history can be replayed.
   */
  predicate Consistent(s: GlobalState) {
    && -1 <= s.activeTab < |s.tabs|
    && (forall i :: 0 <= i < |s.tabs| ==> s.tabs[i].name in s.files)
    && (forall p :: p in s.files ==> s.files[p].name == p && HistoryOk(s.files[p]))
  }

  /** No file stays open without a tab showing it. */
  predicate NoOrphans(s: GlobalState) {
    forall p :: p in s.files ==> NamedBy(s.tabs, p)
  }

  lemma InitialStateConsistent()
    ensures Consistent(InitialState) && NoOrphans(InitialState)
    ensures InitialState.files == map[] && InitialState.tabs == [] && InitialState.activeTab == -1 && InitialState.clip.None?
  {
  }

  /**
   * The active tab, none when the index is negative. The caller must make
   * sure the active tab's file is open: the lookup aborts otherwise.
   */
  function ActiveTab(s: GlobalState): (r: Option<HexTab>)
    requires s.activeTab < |s.tabs|
    requires s.activeTab >= 0 ==> s.tabs[s.activeTab].name in s.files
    ensures r.None? <==> s.activeTab < 0
    ensures r.Some? ==> r.value == s.tabs[s.activeTab] && r.value.name in s.files
  {
    if s.activeTab >= 0 then
      if ActiveFile(s).None? then
        assert false; None
      else
        Some(s.tabs[s.activeTab])
    else None
  }

  /** The file the active tab shows, none when the index is negative. */
  function ActiveFile(s: GlobalState): (r: Option<HexFile>)
    requires s.activeTab < |s.tabs|
    requires s.activeTab >= 0 ==> s.tabs[s.activeTab].name in s.files
    ensures r.None? <==> s.activeTab < 0
    ensures r.Some? ==> r.value == s.files[s.tabs[s.activeTab].name]
  {
    if s.activeTab >= 0 then Some(s.files[s.tabs[s.activeTab].name]) else None
  }

  /** The two lookups agree: both find nothing, or the file is the one the tab names. */
  lemma ActiveLookupsAgree(s: GlobalState)
    requires Consistent(s)
    ensures ActiveTab(s).None? <==> ActiveFile(s).None?
    ensures ActiveTab(s).Some? ==> ActiveFile(s).value.name == ActiveTab(s).value.name
  {
  }

  /** What the actions work on when a tab is active. */
  function EditorOf(s: GlobalState): (e: Editor)
    requires Consistent(s) && s.activeTab >= 0
    ensures e.file == ActiveFile(s).value && e.view == ActiveTab(s).value.view && e.clip == s.clip
    ensures HistoryOk(e.file)
  {
    Editor(s.files[s.tabs[s.activeTab].name], s.tabs[s.activeTab].view, s.clip)
  }

  /** Store an edited file, view and clipboard back into the active tab and its file. */
  function WithEditor(s: GlobalState, e: Editor): (t: GlobalState)
    requires Consistent(s) && s.activeTab >= 0
    requires e.file.name == s.tabs[s.activeTab].name
    ensures t.activeTab == s.activeTab
    ensures HistoryOk(e.file) ==> Consistent(t) && EditorOf(t) == e
    ensures |t.tabs| == |s.tabs| && t.files.Keys == s.files.Keys
    ensures forall i :: 0 <= i < |s.tabs| ==> t.tabs[i].name == s.tabs[i].name
    ensures forall i :: 0 <= i < |s.tabs| && i != s.activeTab ==> t.tabs[i] == s.tabs[i]
    ensures forall p :: p in s.files && p != e.file.name ==> t.files[p] == s.files[p]
    ensures NoOrphans(s) ==> NoOrphans(t)
  {
    var name := s.tabs[s.activeTab].name;
    var t := GlobalState(s.files[name := e.file], s.tabs[s.activeTab := HexTab(name, e.view)], s.activeTab, e.clip);
    assert forall p :: NamedBy(s.tabs, p) ==> NamedBy(t.tabs, p) by {
      forall p | NamedBy(s.tabs, p) ensures NamedBy(t.tabs, p) {
        var i :| 0 <= i < |s.tabs| && s.tabs[i].name == p;
        assert t.tabs[i].name == p;
      }
    }
    t
  }

  /** Storing back what was read changes nothing. */
  lemma WithEditorSame(s: GlobalState)
    requires Consistent(s) && s.activeTab >= 0
    ensures WithEditor(s, EditorOf(s)) == s
  {
    var name := s.tabs[s.activeTab].name;
    assert s.files[name := s.files[name]] == s.files;
    assert s.tabs[s.activeTab := HexTab(name, s.tabs[s.activeTab].view)] == s.tabs;
  }

  /** A second store overrides the first. */
  lemma WithEditorTwice(s: GlobalState, e1: Editor, e2: Editor)
    requires Consistent(s) && s.activeTab >= 0
    requires e1.file.name == s.tabs[s.activeTab].name && HistoryOk(e1.file)
    requires e2.file.name == s.tabs[s.activeTab].name
    ensures WithEditor(WithEditor(s, e1), e2) == WithEditor(s, e2)
  {
    var name := s.tabs[s.activeTab].name;
    assert s.files[name := e1.file][name := e2.file] == s.files[name := e2.file];
    assert s.tabs[s.activeTab := HexTab(name, e1.view)][s.activeTab := HexTab(name, e2.view)]
        == s.tabs[s.activeTab := HexTab(name, e2.view)];
  }

  /** The error text `msg: e`. */
  function MkErr(msg: string, e: string): (r: string)
    ensures |r| == |msg| + 2 + |e|
    ensures r[..|msg|] == msg && r[|msg|..|msg| + 2] == ": " && r[|msg| + 2..] == e
  {
    msg + ": " + e
  }

  /** Under one prefix, distinct causes give distinct error texts. */
  lemma MkErrInjective(msg: string, e1: string, e2: string)
    requires MkErr(msg, e1) == MkErr(msg, e2)
    ensures e1 == e2
  {
    var r := MkErr(msg, e1);
    assert e1 == r[|msg| + 2..];
  }

  /** The global variables, updated in place by the tab, file and edit operations. */
  class Globals {
    var files: map<string, HexFile>
    var tabs: seq<HexTab>
    var activeTab: int
    var clipBoard: Option<seq<Byte>>

    constructor ()
      ensures Snapshot() == InitialState
      ensures Valid() && NoOrphans(Snapshot())
    {
      files := map[];
      tabs := [];
      activeTab := -1;
      clipBoard := None;
    }

    function Snapshot(): GlobalState
      reads this
    {
      GlobalState(files, tabs, activeTab, clipBoard)
    }

    predicate Valid()
      reads this
    {
      Consistent(Snapshot())
    }
  }
}

=== FILE: goint.dfy ===
/**
 * Go's integer division and remainder. Go truncates the quotient toward zero,
 * whereas Dafny's `/` and `%` on `int` are Euclidean; the two agree only when
 * the dividend is non-negative and the divisor positive.
 */
module GoInt {
  /** `a / b` on Go integers. */
  function Div(a: int, b: int): (q: int)
    requires b != 0
    ensures a >= 0 && b > 0 ==> q == a / b
  {
    if a >= 0 && b > 0 then a / b
    else if a >= 0 then -(a / -b)
    else if b > 0 then -((-a) / b)
    else (-a) / (-b)
  }

  /** `a % b` on Go integers: it takes the sign of the dividend. */
  function Rem(a: int, b: int): (r: int)
    requires b != 0
    ensures a == b * Div(a, b) + r
    ensures a >= 0 ==> 0 <= r < (if b > 0 then b else -b)
    ensures a < 0 ==> -(if b > 0 then b else -b) < r <= 0
  {
    a - b * Div(a, b)
  }
}

=== FILE: hexformat.dfy ===
/**
 * Hexadecimal text of addresses: the digit count of an address, its
 * upper-case hexadecimal spelling (Go's `%X`) and zero padding (Go's `%0*X`),
 * together with the parser that reads such text back.
 */
module HexFormat {
  const Digits: string := "0123456789ABCDEF"

  function Pow16(k: nat): (r: nat)
    ensures r >= 1
  {
    if k == 0 then 1 else 16 * Pow16(k - 1)
  }

  /** The number of hexadecimal digits of a positive value; 0 for 0 and below. */
  function HexDigits(a: int): nat
    decreases if a > 0 then a else 0
  {
    if a <= 0 then 0 else 1 + HexDigits(a / 16)
  }

  /** A positive value with `d` digits lies in [16^(d-1), 16^d). */
  lemma {:induction false} HexDigitsBounds(a: int)
    requires a > 0
    ensures HexDigits(a) >= 1
    ensures Pow16(HexDigits(a) - 1) <= a < Pow16(HexDigits(a))
  {
    if a >= 16 {
      var q := a / 16;
      HexDigitsBounds(q);
      var k := HexDigits(q);
      assert HexDigits(a) == k + 1;
      assert Pow16(k) == 16 * Pow16(k - 1);
      assert 16 * Pow16(k - 1) <= 16 * q <= a;
      assert a < 16 * q + 16 <= 16 * Pow16(k);
    }
  }

  lemma {:induction false} Pow16Monotone(i: nat, j: nat)
    requires i <= j
    ensures Pow16(i) <= Pow16(j)
  {
    if i < j {
      Pow16Monotone(i, j - 1);
    }
  }

  /** The digit count is the only `d` with 16^(d-1) <= a < 16^d. */
  lemma HexDigitsUnique(a: int, d: nat)
    requires d >= 1 && Pow16(d - 1) <= a < Pow16(d)
    ensures HexDigits(a) == d
  {
    HexDigitsBounds(a);
    var k := HexDigits(a);
    if k < d {
      Pow16Monotone(k, d - 1);
    } else if k > d {
      Pow16Monotone(d, k - 1);
    }
  }

  predicate IsHexText(s: string) {
    forall i :: 0 <= i < |s| ==> s[i] in Digits
  }

  function DigitValue(c: char): (v: nat)
    requires c in Digits
    ensures v < 16 && Digits[v] == c
  {
    if c == '0' then 0 else if c == '1' then 1 else if c == '2' then 2
    else if c == '3' then 3 else if c == '4' then 4 else if c == '5' then 5
    else if c == '6' then 6 else if c == '7' then 7 else if c == '8' then 8
    else if c == '9' then 9 else if c == 'A' then 10 else if c == 'B' then 11
    else if c == 'C' then 12 else if c == 'D' then 13 else if c == 'E' then 14
    else 15
  }

  /** Go's `%X` of a non-negative value: upper-case digits, no leading zeros, "0" for zero. */
  function HexString(a: nat): (s: string)
    ensures IsHexText(s) && |s| >= 1
    ensures |s| > 1 ==> s[0] != '0'
    decreases a
  {
    if a < 16 then [Digits[a]] else HexString(a / 16) + [Digits[a % 16]]
  }

  /** The value of a hexadecimal text, most significant digit first. */
  function ParseHex(s: string): nat
    requires IsHexText(s)
  {
    if s == [] then 0 else 16 * ParseHex(s[..|s| - 1]) + DigitValue(s[|s| - 1])
  }

  /** Reading the `%X` text of a value gives the value back. */
  lemma {:induction false} ParseHexString(a: nat)
    ensures ParseHex(HexString(a)) == a
    decreases a
  {
    var s := HexString(a);
    if a < 16 {
      assert s[..0] == [];
    } else {
      ParseHexString(a / 16);
      assert s[..|s| - 1] == HexString(a / 16);
    }
  }

  /** `%X` prints as many digits as the digit count, and one digit for zero. */
  lemma {:induction false} HexStringLength(a: nat)
    ensures |HexString(a)| == if a == 0 then 1 else HexDigits(a)
    decreases a
  {
    if a >= 16 {
      HexStringLength(a / 16);
    }
  }

  function Zeros(k: nat): (z: string)
    ensures |z| == k && IsHexText(z)
    ensures forall i :: 0 <= i < k ==> z[i] == '0'
  {
    if k == 0 then [] else ['0'] + Zeros(k - 1)
  }

  /** The zero padding of `%0*X`: pad on the left with '0' up to width `n`. */
  function ZeroPad(s: string, n: nat): (r: string)
    ensures |r| == if |s| < n then n else |s|
    ensures r[|r| - |s|..] == s
    ensures forall i :: 0 <= i < |r| - |s| ==> r[i] == '0'
  {
    if |s| < n then Zeros(n - |s|) + s else s
  }

  /** Leading zeros do not change the value of a hexadecimal text. */
  lemma {:induction false} ParseHexLeadingZeros(k: nat, s: string)
    requires IsHexText(s)
    ensures IsHexText(Zeros(k) + s) && ParseHex(Zeros(k) + s) == ParseHex(s)
    decreases k + |s|
  {
    var t := Zeros(k) + s;
    if s == [] {
      assert t == Zeros(k);
      if k > 0 {
        assert t[..|t| - 1] == Zeros(k - 1) + [];
        ParseHexLeadingZeros(k - 1, []);
      }
    } else {
      assert t[..|t| - 1] == Zeros(k) + s[..|s| - 1];
      ParseHexLeadingZeros(k, s[..|s| - 1]);
    }
  }
}

=== FILE: hexwidget.dfy ===
/**
 * The hex view widget: the per-tab view state (cursor, selection, drag
 * anchor, edit mode), the address column arithmetic, cursor movement with
 * clamping, selection extension by mouse drag and shift-click, the mouse
 * handling of a cell and the scroll target of the view.
 */
module HexWidget {
  import opened HexFormat
  import GoInt

  datatype EditMode = NormalMode | InsertMode | OverwriteMode

  /** The state a tab keeps for its view. */
  datatype HexViewState = HexViewState(
    cursor: int,
    selectionStart: int,
    selectionSize: int,
    dragging: bool,
    dragstart: int,
    editmode: EditMode)
  {
    function Selection(): (int, int) {
      (selectionStart, selectionSize)
    }

    function SetSelection(begin: int, size: int): HexViewState {
      this.(selectionStart := begin, selectionSize := size)
    }

    predicate InSelection(addr: int) {
      selectionStart <= addr < selectionStart + selectionSize
    }
  }

  /** The zero view state of a freshly opened tab. */
  const InitialView: HexViewState := HexViewState(0, 0, 0, false, 0, NormalMode)

  // ---------------------------------------------------------------------
  // Address column

  lemma {:induction false} MulMonotone(x: int, y: int, b: int)
    requires b > 0 && x <= y
    ensures x * b <= y * b
    decreases y - x
  {
    if x < y {
      MulMonotone(x, y - 1, b);
      assert y * b == (y - 1) * b + b;
    }
  }

  /** One step of the digit count: dividing by 16 keeps the scaled bracket around the address. */
  lemma DigitStep(p: int, a: int, addr: int)
    requires p >= 1 && a > 0 && p * a <= addr < p * (a + 1)
    ensures (16 * p) * (a / 16) <= addr < (16 * p) * (a / 16 + 1)
    ensures p <= addr
  {
    var q := a / 16;
    var r := a % 16;
    assert a == 16 * q + r && 0 <= r < 16;
    assert p * a == (16 * p) * q + r * p;
    assert p * (a + 1) == (16 * p) * q + (r + 1) * p;
    MulMonotone(0, r, p);
    MulMonotone(r + 1, 16, p);
    MulMonotone(1, a, p);
    assert (16 * p) * (q + 1) == (16 * p) * q + 16 * p;
  }

  /**
   * Width of the address column: the number of hexadecimal digits of the
   * address, at least one, so that it is the width of its `%X` text.
   */
  method NumHexDigits(addr: int) returns (d: int)
    ensures d >= 1
    ensures addr <= 0 ==> d == 1
    ensures addr > 0 ==> Pow16(d - 1) <= addr < Pow16(d)
    ensures addr >= 0 ==> d == |HexString(addr)|
  {
    var a := addr;
    var hexdigits := 0;
    while a > 0
      invariant addr <= 0 ==> hexdigits == 0
      invariant addr > 0 ==> 0 <= a && Pow16(hexdigits) * a <= addr < Pow16(hexdigits) * (a + 1)
      invariant hexdigits > 0 ==> Pow16(hexdigits - 1) <= addr
      decreases a
    {
      DigitStep(Pow16(hexdigits), a, addr);
      assert Pow16(hexdigits + 1) == 16 * Pow16(hexdigits);
      hexdigits := hexdigits + 1;
      a := a / 16;
    }
    if hexdigits == 0 {
      d := 1;
    } else {
      d := hexdigits;
    }
    if addr >= 0 {
      HexStringLength(addr);
      if addr > 0 {
        HexDigitsUnique(addr, d);
      }
    }
  }

  /** The address label `%0*X:`: the address in upper-case hex, zero padded to `nDigits`, then a colon. */
  function AddrLabel(addr: nat, nDigits: nat): (r: string)
    ensures |r| == 1 + (if |HexString(addr)| < nDigits then nDigits else |HexString(addr)|)
    ensures r[|r| - 1] == ':'
    ensures IsHexText(r[..|r| - 1])
  {
    ZeroPad(HexString(addr), nDigits) + ":"
  }

  /** The digits of an address label read back as the address. */
  lemma AddrLabelValue(addr: nat, nDigits: nat)
    ensures var r := AddrLabel(addr, nDigits); ParseHex(r[..|r| - 1]) == addr
  {
    var s := HexString(addr);
    var r := AddrLabel(addr, nDigits);
    assert r[..|r| - 1] == ZeroPad(s, nDigits);
    var k := |ZeroPad(s, nDigits)| - |s|;
    assert ZeroPad(s, nDigits) == Zeros(k) + s;
    ParseHexLeadingZeros(k, s);
    ParseHexString(addr);
  }

  /**
   * Bytes shown per line for `maxChars` character cells of room: rounded
   * toward zero to a multiple of 4 with Go's remainder, and 4 when that is 0.
   */
  function BytesPerLine(maxChars: int): (r: int)
    ensures r != 0 && r % 4 == 0
    ensures maxChars >= 4 ==> r <= maxChars < r + 4
    ensures -4 < maxChars < 4 ==> r == 4
    ensures maxChars <= -4 ==> r - 4 < maxChars <= r
  {
    var m := maxChars - GoInt.Rem(maxChars, 4);
    if m == 0 then 4 else m
  }

  predicate OnScreen(addr: int, top: int, bpl: int, lps: int) {
    addr > top && addr < top + bpl * lps
  }

  // ---------------------------------------------------------------------
  // Cursor clamping and scrolling

  /** The cursor may rest on any byte or on the end-of-data address `n`. */
  function ClampAddr(a: int, n: nat): (r: int)
    ensures 0 <= r <= n
    ensures 0 <= a <= n ==> r == a
    ensures a < 0 ==> r == 0
    ensures a > n ==> r == n
  {
    if a < 0 then 0 else if a >= n then n else a
  }

  lemma ClampAddrIdempotent(a: int, n: nat)
    ensures ClampAddr(ClampAddr(a, n), n) == ClampAddr(a, n)
  {
  }

  /**
   * The first address of the view as the scroll code computes it: scrolling
   * up puts the cursor's line first, scrolling down rounds
   * (cursor - lps*bpl) up to a line start.
   */
  function ScrollTargetAsWritten(cursor: int, top: int, bpl: int, lps: int): int
    requires bpl != 0
  {
    if cursor < top then GoInt.Div(cursor, bpl) * bpl
    else if cursor > top + bpl * lps then GoInt.Div(cursor - lps * bpl + bpl - 1, bpl) * bpl
    else top
  }

  function ScrollTopAsWritten(cursor: int, top: int, bpl: int, lps: int, n: nat): int
    requires bpl != 0
  {
    ClampAddr(ScrollTargetAsWritten(cursor, top, bpl, lps), n)
  }

  /**
   * The scroll target with the scroll-down case made to put the cursor's
   * line last on the screen: it applies from the first address that is no
   * longer visible and takes the line after (cursor - lps*bpl)'s line.
   */
  function ScrollTarget(cursor: int, top: int, bpl: int, lps: int): int
    requires bpl != 0
  {
    if cursor < top then GoInt.Div(cursor, bpl) * bpl
    else if cursor >= top + bpl * lps then (GoInt.Div(cursor - lps * bpl, bpl) + 1) * bpl
    else top
  }

  lemma LineOf(c: int, b: int, q: int)
    requires b > 0 && q * b <= c < (q + 1) * b
    ensures c / b == q && c % b == c - q * b
  {
    var q' := c / b;
    assert q' * b <= c < q' * b + b;
    assert (q' + 1) * b == q' * b + b;
    assert (q + 1) * b == q * b + b;
    if q' < q {
      MulMonotone(q' + 1, q, b);
    } else if q' > q {
      MulMonotone(q + 1, q', b);
    }
  }

  lemma LineShift(c: int, b: int, k: int)
    requires b > 0
    ensures (c - k * b) / b == c / b - k
  {
    var q := c / b;
    assert q * b <= c < (q + 1) * b;
    assert (q - k) * b == q * b - k * b;
    assert (q - k + 1) * b == (q + 1) * b - k * b;
    LineOf(c - k * b, b, q - k);
  }

  lemma LineStart(q: int, b: int)
    requires b > 0
    ensures (q * b) / b == q && (q * b) % b == 0
  {
    assert (q + 1) * b == q * b + b;
    LineOf(q * b, b, q);
  }

  /** The cursor's line and the view's first line, for a target `t` on a line start. */
  predicate ShowsLine(t: int, cursor: int, bpl: int, lps: int)
    requires bpl > 0
  {
    0 <= t <= cursor && t % bpl == 0 && t / bpl <= cursor / bpl < t / bpl + lps
  }

  lemma ScrollUpShowsCursor(cursor: int, bpl: int, lps: int)
    requires 0 <= cursor && bpl > 0 && lps >= 1
    ensures ShowsLine((cursor / bpl) * bpl, cursor, bpl, lps)
  {
    var L := cursor / bpl;
    MulMonotone(0, L, bpl);
    LineStart(L, bpl);
  }

  lemma ScrollDownShowsCursor(cursor: int, top: int, bpl: int, lps: int)
    requires 0 <= top && bpl > 0 && lps >= 1 && cursor >= top + bpl * lps
    ensures ShowsLine(((cursor - lps * bpl) / bpl + 1) * bpl, cursor, bpl, lps)
  {
    var L := cursor / bpl;
    var a := cursor - lps * bpl;
    assert a >= top;
    LineShift(cursor, bpl, lps);
    assert a / bpl == L - lps;
    assert 0 <= a / bpl;
    var t := (L - lps + 1) * bpl;
    MulMonotone(0, L - lps + 1, bpl);
    MulMonotone(L - lps + 1, L, bpl);
    LineStart(L - lps + 1, bpl);
  }

  lemma StayShowsCursor(cursor: int, top: int, bpl: int, lps: int)
    requires 0 <= top <= cursor && bpl > 0 && top % bpl == 0 && cursor < top + bpl * lps
    ensures ShowsLine(top, cursor, bpl, lps)
  {
    var L := cursor / bpl;
    var m := top / bpl;
    assert top == m * bpl;
    assert L * bpl <= cursor < L * bpl + bpl;
    assert (L + 1) * bpl == L * bpl + bpl;
    assert (m + lps) * bpl == top + bpl * lps;
    if L < m {
      MulMonotone(L + 1, m, bpl);
    }
    if L >= m + lps {
      MulMonotone(m + lps, L, bpl);
    }
  }

  lemma ScrollTargetShowsCursor(cursor: int, top: int, bpl: int, lps: int)
    requires 0 <= cursor && 0 <= top && bpl > 0 && top % bpl == 0 && lps >= 1
    ensures ShowsLine(ScrollTarget(cursor, top, bpl, lps), cursor, bpl, lps)
  {
    if cursor < top {
      ScrollUpShowsCursor(cursor, bpl, lps);
    } else if cursor >= top + bpl * lps {
      ScrollDownShowsCursor(cursor, top, bpl, lps);
    } else {
      StayShowsCursor(cursor, top, bpl, lps);
    }
  }

  /**
   * The first visible address after scrolling to the cursor, clamped to the
   * buffer. For a row-aligned view at least one line high, the cursor's line
   * is then one of the `lps` visible lines.
   */
  function ScrollTop(cursor: int, top: int, bpl: int, lps: int, n: nat): (t: int)
    requires bpl != 0
    ensures 0 <= t <= n
    ensures 0 <= cursor <= n && 0 <= top && bpl > 0 && top % bpl == 0 && lps >= 1 ==>
      ShowsLine(t, cursor, bpl, lps)
  {
    var target := ScrollTarget(cursor, top, bpl, lps);
    if 0 <= cursor <= n && 0 <= top && bpl > 0 && top % bpl == 0 && lps >= 1 then
      ScrollTargetShowsCursor(cursor, top, bpl, lps);
      ClampAddr(target, n)
    else
      ClampAddr(target, n)
  }

  /** Off a line start, the scroll code as written and the corrected target agree. */
  lemma ScrollTargetAsWrittenOffLineStart(cursor: int, top: int, bpl: int, lps: int)
    requires 0 <= cursor && 0 <= top && bpl > 0 && top % bpl == 0 && lps >= 1
    requires cursor % bpl != 0
    ensures ScrollTargetAsWritten(cursor, top, bpl, lps) == ScrollTarget(cursor, top, bpl, lps)
  {
    var L := cursor / bpl;
    var m := top / bpl;
    assert top == m * bpl;
    if cursor >= top + bpl * lps {
      var a := cursor - lps * bpl;
      LineShift(cursor, bpl, lps);
      assert a / bpl == L - lps;
      var r := cursor - L * bpl;
      assert 0 < r < bpl;
      assert a == (L - lps) * bpl + r;
      assert a + bpl - 1 == (L - lps + 1) * bpl + (r - 1);
      LineOf(a + bpl - 1, bpl, L - lps + 1);
      assert cursor != top + bpl * lps by {
        assert top + bpl * lps == (m + lps) * bpl;
        if cursor == (m + lps) * bpl {
          LineStart(m + lps, bpl);
        }
      }
    }
  }

  /**
   * At a line start below the screen, the scroll code as written leaves the
   * cursor's line one below the last visible line.
   */
  lemma ScrollTargetAsWrittenAtLineStart(cursor: int, top: int, bpl: int, lps: int)
    requires 0 <= cursor && 0 <= top && bpl > 0 && top % bpl == 0 && lps >= 1
    requires cursor % bpl == 0 && cursor >= top + bpl * lps
    ensures var t := ScrollTargetAsWritten(cursor, top, bpl, lps);
      0 <= t <= cursor && t % bpl == 0 && cursor / bpl == t / bpl + lps
  {
    var t := ScrollTargetAsWritten(cursor, top, bpl, lps);
    var L := cursor / bpl;
    assert cursor == L * bpl;
    if cursor > top + bpl * lps {
      var a := cursor - lps * bpl;
      assert a == (L - lps) * bpl;
      assert a + bpl - 1 == (L - lps) * bpl + (bpl - 1);
      LineOf(a + bpl - 1, bpl, L - lps);
      assert t == (L - lps) * bpl;
      LineStart(L - lps, bpl);
      LineShift(cursor, bpl, lps);
      assert 0 <= a / bpl;
      MulMonotone(0, L - lps, bpl);
      MulMonotone(L - lps, L, bpl);
    } else {
      assert t == top;
      var m := top / bpl;
      assert top == m * bpl;
      assert cursor == (m + lps) * bpl;
      LineStart(m + lps, bpl);
      MulMonotone(m, m + lps, bpl);
    }
  }

  /**
   * For a row-aligned view the scroll code as written keeps the cursor's line
   * on screen or at most one line below it.
   */
  lemma ScrollTargetAsWrittenWithinOneLine(cursor: int, top: int, bpl: int, lps: int)
    requires 0 <= cursor && 0 <= top && bpl > 0 && top % bpl == 0 && lps >= 1
    ensures var t := ScrollTargetAsWritten(cursor, top, bpl, lps);
      0 <= t <= cursor && t % bpl == 0 && t / bpl <= cursor / bpl <= t / bpl + lps
  {
    if cursor % bpl != 0 {
      ScrollTargetAsWrittenOffLineStart(cursor, top, bpl, lps);
      ScrollTargetShowsCursor(cursor, top, bpl, lps);
    } else if cursor >= top + bpl * lps {
      ScrollTargetAsWrittenAtLineStart(cursor, top, bpl, lps);
    } else {
      assert ScrollTargetAsWritten(cursor, top, bpl, lps) == ScrollTarget(cursor, top, bpl, lps);
      ScrollTargetShowsCursor(cursor, top, bpl, lps);
    }
  }

  /** A concrete view that the scroll code as written leaves with the cursor off screen. */
  lemma ScrollTopAsWrittenCounterexample()
    ensures var t := ScrollTopAsWritten(8, 0, 4, 2, 8); t == 0 && !(t / 4 <= 8 / 4 < t / 4 + 2)
    ensures var t := ScrollTop(8, 0, 4, 2, 8); t / 4 <= 8 / 4 < t / 4 + 2
  {
  }

  /** After scrolling the row-aligned view to the cursor, the cursor is on screen or is the first visible address. */
  lemma LineShownOnScreen(cursor: int, t: int, bpl: int, lps: int)
    requires bpl > 0 && ShowsLine(t, cursor, bpl, lps)
    ensures cursor == t || OnScreen(cursor, t, bpl, lps)
  {
    var m := t / bpl;
    var L := cursor / bpl;
    assert t == m * bpl;
    assert cursor < L * bpl + bpl;
    assert (L + 1) * bpl == L * bpl + bpl;
    assert (m + lps) * bpl == t + bpl * lps;
    MulMonotone(L + 1, m + lps, bpl);
  }

  lemma ScrollTopOnScreen(cursor: int, top: int, bpl: int, lps: int, n: nat)
    requires 0 <= cursor <= n && 0 <= top && bpl > 0 && top % bpl == 0 && lps >= 1
    ensures var t := ScrollTop(cursor, top, bpl, lps, n);
      cursor == t || OnScreen(cursor, t, bpl, lps)
  {
    LineShownOnScreen(cursor, ScrollTop(cursor, top, bpl, lps, n), bpl, lps);
  }

  // ---------------------------------------------------------------------
  // Selection

  function SpanEnd(v: HexViewState): int {
    v.selectionStart + v.selectionSize
  }

  /**
   * The selection after a drag to `addr` or a shift-click on `addr`, before
   * the end-of-data address is taken out. A drag selects the inclusive span
   * between the drag anchor and `addr`; a shift-click with no selection spans
   * from `addr` up to and including the cursor, or from the cursor up to but
   * excluding `addr`; otherwise the nearer edge of the selection moves to `addr`.
   * An empty buffer first drops the selection.
   */
  function ExtendSelection(v: HexViewState, addr: int, n: int): (r: HexViewState)
    ensures r.cursor == v.cursor && r.dragging == v.dragging && r.dragstart == v.dragstart && r.editmode == v.editmode
    ensures v.dragging ==> forall x :: r.InSelection(x) <==>
      (if addr < v.dragstart then addr <= x <= v.dragstart else v.dragstart <= x <= addr)
    ensures !v.dragging && (n <= 0 || v.selectionSize == 0) ==> forall x :: r.InSelection(x) <==>
      (if addr < v.cursor then addr <= x <= v.cursor else v.cursor <= x < addr)
    ensures !v.dragging && n > 0 && v.selectionSize != 0 && addr - v.selectionStart < SpanEnd(v) - addr ==>
      r.selectionStart == addr && SpanEnd(r) == SpanEnd(v)
    ensures !v.dragging && n > 0 && v.selectionSize != 0 && addr - v.selectionStart >= SpanEnd(v) - addr ==>
      r.selectionStart == v.selectionStart && SpanEnd(r) == addr + 1
  {
    var v0 := if n <= 0 then v.(selectionSize := 0, selectionStart := 0) else v;
    if v0.dragging then
      if addr < v0.dragstart then v0.SetSelection(addr, v0.dragstart - addr + 1)
      else v0.SetSelection(v0.dragstart, addr - v0.dragstart + 1)
    else
      var (off, size) := v0.Selection();
      if size == 0 then
        if addr < v0.cursor then v0.SetSelection(addr, v0.cursor - addr + 1)
        else v0.SetSelection(v0.cursor, addr - v0.cursor)
      else if addr - off < off + size - addr then
        v0.(selectionStart := addr, selectionSize := size + (off - addr))
      else
        v0.(selectionSize := size + (addr - (off + size) + 1))
  }

  /** The end-of-data chomp as written: one address off the selection, the cursor back off the end. */
  function ChompEofAsWritten(v: HexViewState, n: int): HexViewState {
    if v.InSelection(n) then
      v.(selectionSize := v.selectionSize - 1, cursor := if v.cursor >= n then n - 1 else v.cursor)
    else v
  }

  /**
   * The end-of-data chomp that keeps its promise: a selection that reaches
   * `n` is cut back to end just before `n`.
   */
  function ChompEof(v: HexViewState, n: int): (r: HexViewState)
    ensures !r.InSelection(n)
    ensures r.selectionStart == v.selectionStart
    ensures forall x :: x < n ==> (r.InSelection(x) <==> v.InSelection(x))
    ensures v.selectionStart <= n ==> forall x :: x >= n ==> !r.InSelection(x)
    ensures r.cursor == if v.InSelection(n) && v.cursor >= n then n - 1 else v.cursor
  {
    if v.InSelection(n) then
      v.(selectionSize := n - v.selectionStart, cursor := if v.cursor >= n then n - 1 else v.cursor)
    else v
  }

  /** When the selection overshoots the end by at most one address the two chomps agree. */
  lemma ChompEofAgrees(v: HexViewState, n: int)
    requires SpanEnd(v) <= n + 1
    ensures ChompEofAsWritten(v, n) == ChompEof(v, n)
  {
  }

  /** `updateSelection`: extend, then take the end-of-data address out of the selection. */
  function UpdatedSelection(v: HexViewState, addr: int, n: int): (r: HexViewState)
    ensures !r.InSelection(n)
    ensures r.dragging == v.dragging && r.dragstart == v.dragstart && r.editmode == v.editmode
  {
    ChompEof(ExtendSelection(v, addr, n), n)
  }

  function UpdatedSelectionAsWritten(v: HexViewState, addr: int, n: int): HexViewState {
    ChompEofAsWritten(ExtendSelection(v, addr, n), n)
  }

  /**
   * The view states the mouse code produces when the buffer has not changed
   * under them: drag anchor and cursor are cell addresses and a non-empty
   * selection stays within the data.
   */
  predicate SelectionInRange(v: HexViewState, addr: int, n: int) {
    && 0 <= addr <= n
    && (v.dragging ==> 0 <= v.dragstart <= n)
    && (!v.dragging && v.selectionSize == 0 ==> v.cursor <= n)
    && (!v.dragging && v.selectionSize != 0 ==> 0 < v.selectionSize && 0 <= v.selectionStart && SpanEnd(v) <= n)
  }

  /**
   * From such states the selection overshoots the end by at most one address,
   * so the single chomp as written suffices and its panic cannot fire.
   */
  lemma UpdatedSelectionAgrees(v: HexViewState, addr: int, n: int)
    requires SelectionInRange(v, addr, n)
    ensures UpdatedSelectionAsWritten(v, addr, n) == UpdatedSelection(v, addr, n)
    ensures !UpdatedSelectionAsWritten(v, addr, n).InSelection(n)
  {
    var e := ExtendSelection(v, addr, n);
    assert SpanEnd(e) <= n + 1;
    ChompEofAgrees(e, n);
  }

  // ---------------------------------------------------------------------
  // Mouse handling of one cell

  /** What the mouse does over a cell in one frame. */
  datatype MouseInput = MouseInput(hovered: bool, down: bool, shift: bool, moved: bool, released: bool)

  /**
   * Mouse handling of the cell at `addr`: a drag in progress extends the
   * selection; a press returns to normal mode, extends on shift, starts a drag
   * when the mouse moved and otherwise drops the selection, and puts the cursor
   * on the cell (on the last byte when a drag reaches the end of data); a
   * release ends the drag.
   */
  function MouseCell(v: HexViewState, addr: int, n: int, m: MouseInput): (r: HexViewState)
    ensures !m.hovered ==> r == v
    ensures m.hovered && m.down ==> r.editmode == NormalMode
    ensures m.hovered && m.down ==>
      r.cursor == if (v.dragging || (!m.shift && m.moved)) && addr == n then addr - 1 else addr
    ensures m.hovered && m.down && !v.dragging && !m.shift ==> r.selectionSize == 0
    ensures m.hovered && m.down && !v.dragging && !m.shift && m.moved ==> r.dragstart == addr && r.selectionStart == addr
    ensures m.hovered && v.dragging ==>
      var u := UpdatedSelection(v, addr, n);
      r.selectionStart == u.selectionStart && r.selectionSize == u.selectionSize
    ensures m.hovered && m.down && !v.dragging && m.shift ==>
      var u := UpdatedSelection(v.(editmode := NormalMode), addr, n);
      r.selectionStart == u.selectionStart && r.selectionSize == u.selectionSize
    ensures m.hovered ==> r.dragging == (!m.released && (v.dragging || (m.down && !m.shift && m.moved)))
    ensures m.hovered && !m.down && !v.dragging ==> r == v.(dragging := r.dragging)
    ensures !v.InSelection(n) ==> !r.InSelection(n)
  {
    if !m.hovered then v
    else
      var v1 := if v.dragging then UpdatedSelection(v, addr, n) else v;
      var v2 :=
        if m.down then
          var w := v1.(editmode := NormalMode);
          var w2 :=
            if w.dragging then w
            else if m.shift then UpdatedSelection(w, addr, n)
            else if m.moved then w.(dragstart := addr, selectionStart := addr, selectionSize := 0, dragging := true)
            else w.(selectionSize := 0);
          w2.(cursor := if w2.dragging && addr == n then addr - 1 else addr)
        else v1;
      if m.released then v2.(dragging := false) else v2
  }

  /** Keyboard cut and copy act on the byte under the cursor when nothing is selected. */
  function SelectedMinimal1(v: HexViewState, n: int): (r: HexViewState)
    ensures v.cursor < n && v.selectionSize == 0 ==> r == v.(selectionStart := v.cursor, selectionSize := 1)
    ensures !(v.cursor < n && v.selectionSize == 0) ==> r == v
    ensures 0 <= v.cursor && !v.InSelection(n) ==> !r.InSelection(n)
  {
    if v.cursor < n && v.selectionSize == 0 then
      v.(selectionStart := v.cursor, selectionSize := v.selectionSize + 1)
    else v
  }

  // ---------------------------------------------------------------------
  // The widget

  /** A hex view over a buffer of `size` bytes, showing `linesPerScreen` lines of `bytesPerLine` bytes from `topAddr`. */
  class HexViewWidget {
    var state: HexViewState
    var size: nat
    var topAddr: int
    var bytesPerLine: int
    var linesPerScreen: int

    predicate Valid()
      reads this
    {
      bytesPerLine != 0
    }

    constructor (st: HexViewState, size: nat, topAddr: int, maxChars: int, linesPerScreen: int)
      ensures Valid()
      ensures state == st && this.size == size && this.topAddr == topAddr
      ensures bytesPerLine == BytesPerLine(maxChars) && this.linesPerScreen == linesPerScreen
    {
      state := st;
      this.size := size;
      this.topAddr := topAddr;
      bytesPerLine := BytesPerLine(maxChars);
      this.linesPerScreen := linesPerScreen;
    }

    /** The new first visible address; it is computed from the cursor, not from `addr`. */
    method ScrollTo(addr: int) returns (top: int)
      requires Valid()
      ensures top == ScrollTop(state.cursor, topAddr, bytesPerLine, linesPerScreen, size)
    {
      var bpl := bytesPerLine;
      top := topAddr;
      if state.cursor < top {
        top := GoInt.Div(state.cursor, bpl) * bpl;
      } else if state.cursor >= top + bpl * linesPerScreen {
        var a := state.cursor - linesPerScreen * bpl;
        top := (GoInt.Div(a, bpl) + 1) * bpl;
      }
      top := ClampAddr(top, size);
    }

    /** Clear the selection, clamp the cursor and scroll to it. */
    method FinishMove() returns (top: int)
      requires Valid()
      modifies this`state
      ensures state == old(state).(selectionStart := 0, selectionSize := 0, cursor := ClampAddr(old(state.cursor), size))
      ensures top == ScrollTop(state.cursor, topAddr, bytesPerLine, linesPerScreen, size)
    {
      state := state.(selectionStart := 0, selectionSize := 0);
      state := state.(cursor := ClampAddr(state.cursor, size));
      top := ScrollTo(state.cursor);
    }

    method MoveRight() returns (top: int)
      requires Valid()
      modifies this`state
      ensures state == old(state).(selectionStart := 0, selectionSize := 0, cursor := ClampAddr(old(state.cursor) + 1, size))
      ensures top == ScrollTop(state.cursor, topAddr, bytesPerLine, linesPerScreen, size)
    {
      state := state.(cursor := state.cursor + 1);
      top := FinishMove();
    }

    method MoveLeft() returns (top: int)
      requires Valid()
      modifies this`state
      ensures state == old(state).(selectionStart := 0, selectionSize := 0, cursor := ClampAddr(old(state.cursor) - 1, size))
      ensures top == ScrollTop(state.cursor, topAddr, bytesPerLine, linesPerScreen, size)
    {
      state := state.(cursor := state.cursor - 1);
      top := FinishMove();
    }

    method MoveDown() returns (top: int)
      requires Valid()
      modifies this`state
      ensures state == old(state).(selectionStart := 0, selectionSize := 0, cursor := ClampAddr(old(state.cursor) + bytesPerLine, size))
      ensures top == ScrollTop(state.cursor, topAddr, bytesPerLine, linesPerScreen, size)
    {
      state := state.(cursor := state.cursor + bytesPerLine);
      top := FinishMove();
    }

    method MoveUp() returns (top: int)
      requires Valid()
      modifies this`state
      ensures state == old(state).(selectionStart := 0, selectionSize := 0, cursor := ClampAddr(old(state.cursor) - bytesPerLine, size))
      ensures top == ScrollTop(state.cursor, topAddr, bytesPerLine, linesPerScreen, size)
    {
      state := state.(cursor := state.cursor - bytesPerLine);
      top := FinishMove();
    }

    method UpdateSelection(addr: int)
      modifies this`state
      ensures state == UpdatedSelection(old(state), addr, size)
      ensures !state.InSelection(size)
    {
      state := ExtendSelection(state, addr, size);
      if state.InSelection(size) {
        state := state.(selectionSize := size - state.selectionStart);
        if state.cursor >= size {
          state := state.(cursor := size - 1);
        }
      }
      // the "EOF is included in selection" panic
      assert !state.InSelection(size);
    }

    method BuildCell(addr: int, m: MouseInput)
      modifies this`state
      ensures state == MouseCell(old(state), addr, size, m)
    {
      if !m.hovered {
        return;
      }
      if state.dragging {
        UpdateSelection(addr);
      }
      if m.down {
        state := state.(editmode := NormalMode);
        if !state.dragging {
          if m.shift {
            UpdateSelection(addr);
          } else if m.moved {
            state := state.(dragstart := addr, selectionStart := addr, selectionSize := 0, dragging := true);
          } else {
            state := state.(selectionSize := 0);
          }
        }
        state := state.(cursor := addr);
        if state.dragging && addr == size {
          state := state.(cursor := addr - 1);
        }
      }
      if m.released {
        state := state.(dragging := false);
      }
    }

    method SelectMinimal1()
      modifies this`state
      ensures state == SelectedMinimal1(old(state), size)
    {
      if state.cursor < size && state.selectionSize == 0 {
        state := state.(selectionStart := state.cursor);
        state := state.(selectionSize := state.selectionSize + 1);
      }
    }

    method CancelInput()
      modifies this`state
      ensures state == old(state).(editmode := NormalMode)
    {
      state := state.(editmode := NormalMode);
    }
  }
}

=== FILE: inputwidget.dfy ===
/**
 * The two-nibble hex input: the first hex digit typed becomes the high
 * nibble, the second the low nibble, and the completed byte goes to the
 * success callback. Backspace steps back a nibble (and cancels from the
 * first), Escape cancels. Each frame acts on at most one key.
 */
module InputWidget {
  import opened Wrappers
  import opened FileBuf

  type Nibble = d: bv8 | d < 16

  /** The keys the input reacts to. */
  datatype Key = Digit(d: Nibble) | Backspace | Escape

  /** Which callback a frame ended up calling. */
  datatype Outcome = NoCall | CancelCalled | SuccessCalled(b: Byte)

  /** The position of a key in the order the key tests are made: digits 0 to F, then Backspace, then Escape. */
  function Rank(k: Key): (r: nat)
    ensures r < 18
  {
    match k
    case Digit(d) => d as nat
    case Backspace => 16
    case Escape => 17
  }

  function KeyAt(i: nat): (k: Key)
    requires i < 18
    ensures Rank(k) == i
  {
    if i < 16 then Digit(i as bv8) else if i == 16 then Backspace else Escape
  }

  lemma KeyAtRank(k: Key)
    ensures KeyAt(Rank(k)) == k
  {
  }

  /** The first key, from position `i` on, that is pressed. */
  function FirstFrom(pressed: set<Key>, i: nat): (r: Option<Key>)
    requires i <= 18
    ensures r.Some? ==> r.value in pressed && i <= Rank(r.value)
    ensures r.Some? ==> forall j :: i <= j < Rank(r.value) ==> KeyAt(j) !in pressed
    ensures r.None? ==> forall j :: i <= j < 18 ==> KeyAt(j) !in pressed
    decreases 18 - i
  {
    if i == 18 then None
    else if KeyAt(i) in pressed then Some(KeyAt(i))
    else FirstFrom(pressed, i + 1)
  }

  /** The key a frame acts on: the pressed key tested first, if any. */
  function FirstKey(pressed: set<Key>): (r: Option<Key>)
    ensures r.None? <==> pressed == {}
    ensures r.Some? ==> r.value in pressed && forall k :: k in pressed ==> Rank(r.value) <= Rank(k)
  {
    var r := FirstFrom(pressed, 0);
    if r.None? then
      assert forall k :: k in pressed ==> false by {
        forall k | k in pressed ensures false {
          KeyAtRank(k);
        }
      }
      r
    else
      assert forall k :: k in pressed ==> Rank(r.value) <= Rank(k) by {
        forall k | k in pressed ensures Rank(r.value) <= Rank(k) {
          KeyAtRank(k);
        }
      }
      r
  }

  /** The byte `hi<<4 | lo`. */
  function Combine(hi: bv8, lo: bv8): bv8 {
    (hi << 4) | lo
  }

  /** A byte made of two nibbles splits back into them. */
  lemma CombineSplits(hi: Nibble, lo: Nibble)
    ensures Combine(hi, lo) >> 4 == hi && Combine(hi, lo) & 0xF == lo
  {
  }

  /** Every byte is made of its two nibbles. */
  lemma SplitCombines(b: bv8)
    ensures b >> 4 < 16 && b & 0xF < 16
    ensures Combine(b >> 4, b & 0xF) == b
  {
  }

  /** The entry state: the nibbles typed so far and how many. */
  datatype InputState = InputState(hi: bv8, lo: bv8, at: int)

  const Cleared: InputState := InputState(0, 0, 0)

  /** `cancel`: call the cancel callback when there is one, then reset. */
  function Cancelled(hasCancel: bool): (InputState, Outcome) {
    (Cleared, if hasCancel then CancelCalled else NoCall)
  }

  /**
   * One frame of the input acting on `key`. A digit fills the high nibble
   * when none was typed yet and the low nibble otherwise; the second one
   * completes the byte, which is delivered, and the entry cleared, only when
   * there is a success callback.
   */
  function Step(s: InputState, key: Option<Key>, hasCancel: bool, hasSuccess: bool): (r: (InputState, Outcome))
    ensures key.None? ==> r == (s, NoCall)
    ensures key == Some(Escape) ==> r == Cancelled(hasCancel)
    ensures key == Some(Backspace) ==> r == if s.at <= 0 then Cancelled(hasCancel) else (s.(at := s.at - 1), NoCall)
    ensures r.1.SuccessCalled? ==>
      && hasSuccess && key.Some? && key.value.Digit? && s.at >= 1
      && r.1.b == Combine(s.hi, key.value.d) && r.0 == Cleared
    ensures key.Some? && key.value.Digit? && hasSuccess && s.at >= 1 ==>
      r == (Cleared, SuccessCalled(Combine(s.hi, key.value.d)))
    ensures key.Some? && key.value.Digit? && !(hasSuccess && s.at >= 1) ==>
      && r.1 == NoCall && r.0.at == s.at + 1
      && (s.at == 0 ==> r.0.hi == key.value.d && r.0.lo == s.lo)
      && (s.at != 0 ==> r.0.hi == s.hi && r.0.lo == key.value.d)
    ensures r.1 == CancelCalled ==> hasCancel && r.0 == Cleared
    ensures s.hi < 16 && s.lo < 16 ==> r.0.hi < 16 && r.0.lo < 16
    ensures 0 <= s.at ==> 0 <= r.0.at
    ensures hasSuccess && 0 <= s.at <= 1 ==> 0 <= r.0.at <= 1
  {
    match key
    case None => (s, NoCall)
    case Some(Escape) => Cancelled(hasCancel)
    case Some(Backspace) =>
      if s.at - 1 < 0 then Cancelled(hasCancel) else (s.(at := s.at - 1), NoCall)
    case Some(Digit(d)) =>
      var s1 := if s.at == 0 then s.(hi := d) else s.(lo := d);
      var s2 := s1.(at := s1.at + 1);
      if s2.at >= 2 && hasSuccess then (Cleared, SuccessCalled(Combine(s2.hi, s2.lo)))
      else (s2, NoCall)
  }

  /** Two digits typed into a cleared entry deliver the byte they spell and clear the entry again. */
  lemma TwoDigitsDeliver(d1: Nibble, d2: Nibble, hasCancel: bool)
    ensures var (s1, o1) := Step(Cleared, Some(Digit(d1)), hasCancel, true);
      && o1 == NoCall && s1.at == 1
      && Step(s1, Some(Digit(d2)), hasCancel, true) == (Cleared, SuccessCalled(Combine(d1, d2)))
  {
  }

  /** A digit, Backspace, then another digit: the second digit replaces the first as the high nibble. */
  lemma BackspaceRetypesHigh(d1: Nibble, d2: Nibble, hasCancel: bool, hasSuccess: bool)
    ensures var s1 := Step(Cleared, Some(Digit(d1)), hasCancel, hasSuccess).0;
      var s2 := Step(s1, Some(Backspace), hasCancel, hasSuccess).0;
      Step(s2, Some(Digit(d2)), hasCancel, hasSuccess) == (InputState(d2, 0, 1), NoCall)
  {
  }

  /** The input widget: its entry state and whether each callback is set. */
  class InputHexByte {
    var hi: bv8
    var lo: bv8
    var at: int
    var hasCancel: bool
    var hasSuccess: bool

    function Current(): InputState
      reads this
    {
      InputState(hi, lo, at)
    }

    /** A new input with a cleared entry. */
    constructor (hasCancel: bool, hasSuccess: bool)
      ensures Current() == Cleared && this.hasCancel == hasCancel && this.hasSuccess == hasSuccess
    {
      hi, lo, at := 0, 0, 0;
      this.hasCancel := hasCancel;
      this.hasSuccess := hasSuccess;
    }

    /** An input found again under its id keeps its entry and takes the new callbacks. */
    method Attach(hasCancel: bool, hasSuccess: bool)
      modifies this
      ensures Current() == old(Current()) && this.hasCancel == hasCancel && this.hasSuccess == hasSuccess
    {
      this.hasCancel := hasCancel;
      this.hasSuccess := hasSuccess;
    }

    method Reset()
      modifies this
      ensures Current() == Cleared
      ensures hasCancel == old(hasCancel) && hasSuccess == old(hasSuccess)
    {
      hi := 0;
      lo := 0;
      at := 0;
    }

    method Cancel() returns (out: Outcome)
      modifies this
      ensures (Current(), out) == Cancelled(hasCancel)
      ensures hasCancel == old(hasCancel) && hasSuccess == old(hasSuccess)
    {
      out := NoCall;
      if hasCancel {
        out := CancelCalled;
      }
      Reset();
    }

    method Success() returns (out: Outcome)
      modifies this
      ensures hasSuccess ==> Current() == Cleared && out == SuccessCalled(Combine(old(hi), old(lo)))
      ensures !hasSuccess ==> Current() == old(Current()) && out == NoCall
      ensures hasCancel == old(hasCancel) && hasSuccess == old(hasSuccess)
    {
      out := NoCall;
      if hasSuccess {
        out := SuccessCalled(Combine(hi, lo));
        Reset();
      }
    }

    /** One frame: act on the first pressed key. */
    method Build(pressed: set<Key>) returns (out: Outcome)
      modifies this
      ensures (Current(), out) == Step(old(Current()), FirstKey(pressed), hasCancel, hasSuccess)
      ensures hasCancel == old(hasCancel) && hasSuccess == old(hasSuccess)
    {
      var input: Option<Nibble> := None;
      match FirstKey(pressed) {
        case Some(Digit(d)) =>
          input := Some(d);
        case Some(Backspace) =>
          at := at - 1;
          if at < 0 {
            out := Cancel();
            return;
          }
        case Some(Escape) =>
          out := Cancel();
          return;
        case None =>
      }
      out := NoCall;
      if input.Some? {
        if at == 0 {
          hi := input.value;
        } else {
          lo := input.value;
        }
        at := at + 1;
        if at >= 2 {
          out := Success();
        }
      }
    }
  }
}

=== FILE: legacy_widget.dfy ===
/**
 * The older hex view in the `widget` package, which the tab code builds its
 * views with. Its view state is only a cursor and a selection, the address
 * column has no minimum width, a line may hold 0 bytes, the cursor is
 * clamped to the last byte rather than to the end-of-data address, and the
 * scroll position is kept as a line number.
 */
module LegacyWidget {
  import opened Wrappers
  import opened HexFormat
  import GoInt
  import HexWidget

  /** The digit count as the older code computes it: 0 for 0 and below. */
  method NumHexDigits(addr: int) returns (d: int)
    ensures d == HexDigits(addr)
    ensures addr <= 0 ==> d == 0
    ensures addr > 0 ==> d >= 1 && Pow16(d - 1) <= addr < Pow16(d)
  {
    var a := addr;
    var hexdigits := 0;
    while a > 0
      invariant a <= 0 ==> (a == addr && hexdigits == 0) || a == 0
      invariant hexdigits + HexDigits(a) == HexDigits(addr)
      decreases if a > 0 then a else 0
    {
      hexdigits := hexdigits + 1;
      a := a / 16;
    }
    d := hexdigits;
    if addr > 0 {
      HexDigitsBounds(addr);
    }
  }

  lemma Pow16Table()
    ensures Pow16(0) == 1 && Pow16(1) == 0x10 && Pow16(2) == 0x100 && Pow16(5) == 0x10_0000
    ensures Pow16(6) == 0x100_0000 && Pow16(7) == 0x1000_0000 && Pow16(8) == 0x1_0000_0000
    ensures Pow16(12) == 0x1_0000_0000_0000 && Pow16(13) == 0x10_0000_0000_0000
  {
    assert Pow16(1) == 16 * Pow16(0);
    assert Pow16(2) == 16 * Pow16(1);
    assert Pow16(3) == 16 * Pow16(2);
    assert Pow16(4) == 16 * Pow16(3);
    assert Pow16(5) == 16 * Pow16(4);
    assert Pow16(6) == 16 * Pow16(5);
    assert Pow16(7) == 16 * Pow16(6);
    assert Pow16(8) == 16 * Pow16(7);
    assert Pow16(9) == 16 * Pow16(8);
    assert Pow16(10) == 16 * Pow16(9);
    assert Pow16(11) == 16 * Pow16(10);
    assert Pow16(12) == 16 * Pow16(11);
    assert Pow16(13) == 16 * Pow16(12);
  }

  /** The digit counts of the package's unit test table. */
  lemma NumHexDigitsTable()
    ensures HexDigits(0) == 0
    ensures HexDigits(0xf) == 1 && HexDigits(0xa) == 1 && HexDigits(0x01) == 1
    ensures HexDigits(0xff) == 2 && HexDigits(0xffffff) == 6 && HexDigits(0xdeadbeef) == 8
    ensures HexDigits(0x1111000ffffff) == 13
  {
    Pow16Table();
    HexDigitsUnique(0xf, 1);
    HexDigitsUnique(0xa, 1);
    HexDigitsUnique(0x01, 1);
    HexDigitsUnique(0xff, 2);
    HexDigitsUnique(0xffffff, 6);
    HexDigitsUnique(0xdeadbeef, 8);
    HexDigitsUnique(0x1111000ffffff, 13);
  }

  /** The address label `%0*X: `: upper-case hex zero padded to `nDigits`, a colon and a space. */
  function AddrLabel(addr: nat, nDigits: nat): (r: string)
    ensures |r| == 2 + (if |HexString(addr)| < nDigits then nDigits else |HexString(addr)|)
    ensures r[|r| - 2..] == ": "
    ensures IsHexText(r[..|r| - 2])
  {
    ZeroPad(HexString(addr), nDigits) + ": "
  }

  /** The digits of the label read back as the address, as in the newer label. */
  lemma AddrLabelValue(addr: nat, nDigits: nat)
    ensures var r := AddrLabel(addr, nDigits); ParseHex(r[..|r| - 2]) == addr
    ensures var r := AddrLabel(addr, nDigits); r[..|r| - 2] == HexWidget.AddrLabel(addr, nDigits)[..|r| - 2]
  {
    var r := AddrLabel(addr, nDigits);
    var q := HexWidget.AddrLabel(addr, nDigits);
    assert r[..|r| - 2] == ZeroPad(HexString(addr), nDigits);
    assert q[..|q| - 1] == ZeroPad(HexString(addr), nDigits);
    HexWidget.AddrLabelValue(addr, nDigits);
  }

  /** Bytes per line: `maxChars` less its Go remainder by 4, which may be 0. */
  function BytesPerLine(maxChars: int): (r: int)
    ensures r % 4 == 0
    ensures maxChars >= 0 ==> 0 <= r <= maxChars < r + 4
    ensures maxChars < 0 ==> r - 4 < maxChars <= r <= 0
  {
    maxChars - GoInt.Rem(maxChars, 4)
  }

  /** The newer revision only replaces a count of 0 by 4. */
  lemma BytesPerLineRevisions(maxChars: int)
    ensures HexWidget.BytesPerLine(maxChars) == if BytesPerLine(maxChars) == 0 then 4 else BytesPerLine(maxChars)
  {
  }

  /**
   * The older clamp: into [0, n-1], so the end-of-data address is not a cursor
   * position; an empty buffer sends every non-negative address to -1.
   */
  function ClampAddr(a: int, n: nat): (r: int)
    ensures n >= 1 ==> 0 <= r < n
    ensures 0 <= a < n ==> r == a
    ensures a < 0 ==> r == 0
    ensures a >= n ==> r == n - 1
  {
    if a < 0 then 0 else if a >= n then n - 1 else a
  }

  /** On a non-empty buffer the clamp is idempotent; on an empty one it flips between 0 and -1. */
  lemma ClampAddrIdempotent(a: int, n: nat)
    ensures n >= 1 ==> ClampAddr(ClampAddr(a, n), n) == ClampAddr(a, n)
    ensures n == 0 ==> ClampAddr(0, n) == -1 && ClampAddr(ClampAddr(0, n), n) == 0
  {
  }

  /**
   * The scroll line after scrolling to the cursor: the first visible line is
   * the given one, the top address found by the same formulas as the newer
   * scroll code is clamped and turned back into a line. With 0 bytes per
   * line the divisions abort, shown here as None.
   */
  function ScrollLine(cursor: int, scrollLine: int, bpl: int, lps: int, n: nat): (r: Option<int>)
    ensures r.Some? <==> bpl != 0
    ensures bpl > 0 && lps >= 1 && 0 <= cursor < n && scrollLine >= 0 ==>
      r.value * bpl <= cursor && r.value <= cursor / bpl <= r.value + lps
  {
    if bpl == 0 then None
    else
      var top := scrollLine * bpl;
      var t := ClampAddr(HexWidget.ScrollTargetAsWritten(cursor, top, bpl, lps), n);
      if bpl > 0 && lps >= 1 && 0 <= cursor < n && scrollLine >= 0 then
        ScrollLineBound(cursor, scrollLine, bpl, lps, n);
        Some(GoInt.Div(t, bpl))
      else
        Some(GoInt.Div(t, bpl))
  }

  lemma ScrollLineBound(cursor: int, scrollLine: int, bpl: int, lps: int, n: nat)
    requires bpl > 0 && lps >= 1 && 0 <= cursor < n && scrollLine >= 0
    ensures var t := ClampAddr(HexWidget.ScrollTargetAsWritten(cursor, scrollLine * bpl, bpl, lps), n);
      var line := GoInt.Div(t, bpl);
      line * bpl <= cursor && line <= cursor / bpl <= line + lps
  {
    var top := scrollLine * bpl;
    HexWidget.MulMonotone(0, scrollLine, bpl);
    HexWidget.LineStart(scrollLine, bpl);
    HexWidget.ScrollTargetAsWrittenWithinOneLine(cursor, top, bpl, lps);
    var t := HexWidget.ScrollTargetAsWritten(cursor, top, bpl, lps);
    assert ClampAddr(t, n) == t;
    assert t == (t / bpl) * bpl;
  }

  /** The older view: cursor and selection of a buffer of `size` bytes, scrolled to line `scrollLine`. */
  class HexView {
    var cursor: int
    var selection: int
    var size: nat
    var bytesPerLine: int
    var linesPerScreen: int
    var scrollLine: int

    /** A view on the caller's cursor and selection, which a tab keeps from frame to frame. */
    constructor (cursor: int, selection: int, scrollLine: int, size: nat, maxChars: int, linesPerScreen: int)
      ensures this.cursor == cursor && this.selection == selection && this.scrollLine == scrollLine
      ensures this.size == size && bytesPerLine == BytesPerLine(maxChars) && this.linesPerScreen == linesPerScreen
    {
      this.cursor := cursor;
      this.selection := selection;
      this.size := size;
      bytesPerLine := BytesPerLine(maxChars);
      this.linesPerScreen := linesPerScreen;
      this.scrollLine := scrollLine;
    }

    /** Scroll so the cursor shows; `addr` is not used. */
    method ScrollTo(addr: int)
      requires bytesPerLine != 0
      modifies this`scrollLine
      ensures Some(scrollLine) == ScrollLine(cursor, old(scrollLine), bytesPerLine, linesPerScreen, size)
    {
      var bpl := bytesPerLine;
      var top := scrollLine * bpl;
      if cursor < top {
        top := GoInt.Div(cursor, bpl) * bpl;
      } else if cursor > top + bpl * linesPerScreen {
        var a := cursor - linesPerScreen * bpl;
        top := GoInt.Div(a + bpl - 1, bpl) * bpl;
      }
      top := ClampAddr(top, size);
      scrollLine := GoInt.Div(top, bpl);
    }

    method FinishMove()
      requires bytesPerLine != 0
      modifies this`cursor, this`scrollLine
      ensures cursor == ClampAddr(old(cursor), size)
      ensures Some(scrollLine) == ScrollLine(cursor, old(scrollLine), bytesPerLine, linesPerScreen, size)
    {
      cursor := ClampAddr(cursor, size);
      ScrollTo(cursor);
    }

    method MoveRight()
      requires bytesPerLine != 0
      modifies this`cursor, this`scrollLine
      ensures cursor == ClampAddr(old(cursor) + 1, size) && selection == old(selection)
      ensures Some(scrollLine) == ScrollLine(cursor, old(scrollLine), bytesPerLine, linesPerScreen, size)
    {
      cursor := cursor + 1;
      FinishMove();
    }

    method MoveLeft()
      requires bytesPerLine != 0
      modifies this`cursor, this`scrollLine
      ensures cursor == ClampAddr(old(cursor) - 1, size) && selection == old(selection)
      ensures Some(scrollLine) == ScrollLine(cursor, old(scrollLine), bytesPerLine, linesPerScreen, size)
    {
      cursor := cursor - 1;
      FinishMove();
    }

    method MoveDown()
      requires bytesPerLine != 0
      modifies this`cursor, this`scrollLine
      ensures cursor == ClampAddr(old(cursor) + bytesPerLine, size) && selection == old(selection)
      ensures Some(scrollLine) == ScrollLine(cursor, old(scrollLine), bytesPerLine, linesPerScreen, size)
    {
      cursor := cursor + bytesPerLine;
      FinishMove();
    }

    method MoveUp()
      requires bytesPerLine != 0
      modifies this`cursor, this`scrollLine
      ensures cursor == ClampAddr(old(cursor) - bytesPerLine, size) && selection == old(selection)
      ensures Some(scrollLine) == ScrollLine(cursor, old(scrollLine), bytesPerLine, linesPerScreen, size)
    {
      cursor := cursor - bytesPerLine;
      FinishMove();
    }
  }
}

=== FILE: registry.dfy ===
/**
 * Opening and closing files and tabs. Opening a path reuses the file when it
 * is already open and adds a tab; closing a tab closes its file once no tab
 * shows it any more. The file system's answer to stat and open is an input.
 */
module Registry {
  import opened Wrappers
  import opened FileBuf
  import opened HexWidget
  import opened Editing
  import opened Global

  /** What stat and open report for a path. */
  datatype FileProbe =
    | StatFailed(err: string)
    | NotRegular
    | OpenFailed(err: string)
    | Opened(contents: seq<Byte>)

  /** Append a tab with a fresh view on `hf`. */
  method OpenTab(g: Globals, hf: HexFile)
    modifies g
    ensures g.tabs == old(g.tabs) + [HexTab(hf.name, InitialView)]
    ensures g.files == old(g.files) && g.activeTab == old(g.activeTab) && g.clipBoard == old(g.clipBoard)
    ensures old(g.Valid()) && hf.name in g.files ==> g.Valid()
    ensures NoOrphans(old(g.Snapshot())) ==> NoOrphans(g.Snapshot())
  {
    AppendTabKeeps(g.Snapshot(), hf.name);
    g.tabs := g.tabs + [HexTab(hf.name, InitialView)];
  }

  /**
   * Open `path`: an open file is reused without asking the file system; a new
   * path is stat'ed and opened, and any failure is reported without changing
   * anything. Either way one tab on the file is appended.
   */
  method OpenHexFile(g: Globals, path: string, probe: FileProbe) returns (r: Result<HexFile, string>)
    modifies g
    ensures path in old(g.files) ==>
      && r == Ok(old(g.files)[path])
      && g.files == old(g.files)
      && g.tabs == old(g.tabs) + [HexTab(old(g.files)[path].name, InitialView)]
    ensures path !in old(g.files) && probe.StatFailed? ==>
      r == Err(MkErr("OpenFile", probe.err)) && g.Snapshot() == old(g.Snapshot())
    ensures path !in old(g.files) && probe.NotRegular? ==>
      r == Err(MkErr("OpenHexFile", path + " is not a regular file")) && g.Snapshot() == old(g.Snapshot())
    ensures path !in old(g.files) && probe.OpenFailed? ==>
      r == Err(MkErr("OpenHexFile", probe.err)) && g.Snapshot() == old(g.Snapshot())
    ensures path !in old(g.files) && probe.Opened? ==>
      && r == Ok(HexFile(path, probe.contents, false, [], []))
      && g.files == old(g.files)[path := HexFile(path, probe.contents, false, [], [])]
      && g.tabs == old(g.tabs) + [HexTab(path, InitialView)]
    ensures g.activeTab == old(g.activeTab) && g.clipBoard == old(g.clipBoard)
    ensures old(g.Valid()) ==> g.Valid()
    ensures old(g.Valid()) && NoOrphans(old(g.Snapshot())) ==> NoOrphans(g.Snapshot())
  {
    var hf: HexFile;
    if path in g.files {
      hf := g.files[path];
    } else {
      match probe
      case StatFailed(err) =>
        return Err(MkErr("OpenFile", err));
      case NotRegular =>
        return Err(MkErr("OpenHexFile", path + " is not a regular file"));
      case OpenFailed(err) =>
        return Err(MkErr("OpenHexFile", err));
      case Opened(contents) =>
        hf := HexFile(path, contents, false, [], []);
        if g.Valid() {
          AddFileKeeps(g.Snapshot(), hf);
        }
        g.files := g.files[path := hf];
    }
    AppendTabKeeps(g.Snapshot(), hf.name);
    OpenTab(g, hf);
    r := Ok(hf);
  }

  /**
   * Close the file at `path`, which no tab may show any more (that aborts);
   * a path that is not open is reported and changes nothing.
   */
  method CloseHexFile(g: Globals, path: string) returns (r: Option<string>)
    requires path in g.files ==> !NamedBy(g.tabs, path)
    modifies g
    ensures path !in old(g.files) ==>
      r == Some(MkErr("CloseHexFile", "No file named (" + path + ") open.")) && g.Snapshot() == old(g.Snapshot())
    ensures path in old(g.files) ==> r.None? && g.files == old(g.files) - {path}
    ensures g.tabs == old(g.tabs) && g.activeTab == old(g.activeTab) && g.clipBoard == old(g.clipBoard)
    ensures old(g.Valid()) ==> g.Valid()
  {
    if path !in g.files {
      return Some(MkErr("CloseHexFile", "No file named (" + path + ") open."));
    }
    if g.Valid() {
      DropFileKeeps(g.Snapshot(), path);
    }
    g.files := g.files - {path};
    // The scan for a tab still showing the file, which aborts; the precondition rules it out.
    var i := 0;
    while i < |g.tabs|
      invariant 0 <= i <= |g.tabs|
      invariant forall j :: 0 <= j < i ==> g.tabs[j].name != path
    {
      if g.tabs[i].name == path {
        assert false;
      }
      i := i + 1;
    }
    r := None;
  }

  /**
   * Close tab `t`. The file considered for closing is the one the active tab
   * shows, read before the removal; it is closed only when no remaining tab
   * shows it. The active index steps back when the active tab itself closes.
   */
  method CloseTab(g: Globals, t: int)
    requires 0 <= t < |g.tabs|
    requires 0 <= g.activeTab < |g.tabs|
    modifies g
    ensures g.tabs == old(g.tabs[..t] + g.tabs[t + 1..])
    ensures g.activeTab == if old(g.activeTab) == t then t - 1 else old(g.activeTab)
    ensures var name := old(g.tabs[g.activeTab].name);
      g.files == if NamedBy(g.tabs, name) then old(g.files) else old(g.files) - {name}
    ensures g.clipBoard == old(g.clipBoard)
    ensures old(g.Valid()) && t == old(g.activeTab) ==> g.Valid()
    ensures old(g.Valid()) && NoOrphans(old(g.Snapshot())) && t == old(g.activeTab) ==> NoOrphans(g.Snapshot())
  {
    ghost var s := g.Snapshot();
    var tab := g.tabs[g.activeTab];
    var rest := g.tabs[..t] + g.tabs[t + 1..];
    g.tabs := rest;
    if g.activeTab == t {
      g.activeTab := g.activeTab - 1;
    }
    if Consistent(s) && t == s.activeTab {
      CloseActiveKeeps(s, t);
    }
    var shown := Shows(rest, tab.name);
    if !shown {
      var _ := CloseHexFile(g, tab.name);
    }
  }

  /** Whether some tab of `tabs` shows `name`, by a scan from the front. */
  method Shows(tabs: seq<HexTab>, name: string) returns (shown: bool)
    ensures shown <==> NamedBy(tabs, name)
  {
    shown := false;
    var i := 0;
    while i < |tabs| && !shown
      invariant 0 <= i <= |tabs|
      invariant shown <==> NamedBy(tabs[..i], name)
    {
      shown := tabs[i].name == name;
      assert tabs[..i + 1] == tabs[..i] + [tabs[i]];
      i := i + 1;
    }
    if !shown {
      assert tabs[..i] == tabs;
    } else {
      var j :| 0 <= j < i && tabs[..i][j].name == name;
      assert tabs[j].name == name;
    }
  }

  /**
   * Closing the active tab keeps the registry consistent, whether or not its
   * file is then closed, and leaves no open file without a tab.
   */
  lemma CloseActiveKeeps(s: GlobalState, t: int)
    requires Consistent(s) && 0 <= t == s.activeTab
    ensures var name := s.tabs[t].name;
      var u := s.(tabs := s.tabs[..t] + s.tabs[t + 1..], activeTab := t - 1);
      && Consistent(u)
      && (!NamedBy(u.tabs, name) ==> Consistent(u.(files := s.files - {name})))
      && (NoOrphans(s) && NamedBy(u.tabs, name) ==> NoOrphans(u))
      && (NoOrphans(s) && !NamedBy(u.tabs, name) ==> NoOrphans(u.(files := s.files - {name})))
  {
    var name := s.tabs[t].name;
    var u := s.(tabs := s.tabs[..t] + s.tabs[t + 1..], activeTab := t - 1);
    RemoveActiveTabKeeps(s, t);
    if !NamedBy(u.tabs, name) {
      DropFileKeeps(u, name);
    }
    if NoOrphans(s) {
      NoOrphansAfterClose(s, t);
    }
  }

  /** Closing the active tab leaves every open file shown by some tab. */
  lemma NoOrphansAfterClose(s: GlobalState, t: int)
    requires 0 <= t < |s.tabs| && NoOrphans(s)
    ensures var rest := s.tabs[..t] + s.tabs[t + 1..];
      forall p :: p in s.files && p != s.tabs[t].name ==> NamedBy(rest, p)
  {
    var rest := s.tabs[..t] + s.tabs[t + 1..];
    forall p | p in s.files && p != s.tabs[t].name ensures NamedBy(rest, p) {
      var i :| 0 <= i < |s.tabs| && s.tabs[i].name == p;
      assert i != t;
      if i < t {
        assert rest[i] == s.tabs[i];
      } else {
        assert rest[i - 1] == s.tabs[i];
      }
    }
  }

  lemma AppendTabKeeps(s: GlobalState, name: string)
    ensures var t := s.(tabs := s.tabs + [HexTab(name, InitialView)]);
      && NamedBy(t.tabs, name)
      && (Consistent(s) && name in s.files ==> Consistent(t))
      && ((forall p :: p in s.files && p != name ==> NamedBy(s.tabs, p)) ==> NoOrphans(t))
  {
    var t := s.(tabs := s.tabs + [HexTab(name, InitialView)]);
    assert t.tabs[|s.tabs|].name == name;
    forall p | NamedBy(s.tabs, p) ensures NamedBy(t.tabs, p) {
      var i :| 0 <= i < |s.tabs| && s.tabs[i].name == p;
      assert t.tabs[i].name == p;
    }
  }

  lemma AddFileKeeps(s: GlobalState, hf: HexFile)
    requires Consistent(s) && hf.name !in s.files && hf.undo == [] && hf.redo == []
    ensures Consistent(s.(files := s.files[hf.name := hf]))
  {
  }

  lemma DropFileKeeps(s: GlobalState, path: string)
    requires Consistent(s) && !NamedBy(s.tabs, path)
    ensures Consistent(s.(files := s.files - {path}))
  {
    forall i | 0 <= i < |s.tabs| ensures s.tabs[i].name in s.files - {path} {
      assert s.tabs[i].name != path;
    }
  }

  lemma RemoveActiveTabKeeps(s: GlobalState, t: int)
    requires Consistent(s) && 0 <= t == s.activeTab
    ensures Consistent(s.(tabs := s.tabs[..t] + s.tabs[t + 1..], activeTab := t - 1))
  {
    var rest := s.tabs[..t] + s.tabs[t + 1..];
    forall j | 0 <= j < |rest| ensures rest[j].name in s.files {
      assert rest[j] == s.tabs[if j < t then j else j + 1];
    }
  }

  /** The tab bar makes the tab the user picks the active one. */
  method SelectTab(g: Globals, i: int)
    requires 0 <= i < |g.tabs|
    modifies g
    ensures g.Snapshot() == old(g.Snapshot()).(activeTab := i)
    ensures old(g.Valid()) ==> g.Valid()
  {
    g.activeTab := i;
  }
}

=== FILE: wrappers.dfy ===
/** Option and Result values used for the editor's nil results and error returns. */
module Wrappers {
  datatype Option<+T> = None | Some(value: T)

  datatype Result<+T, +E> = Ok(value: T) | Err(error: E)
}
